=== FILE: README.md ===
# VT Scope replay cursor and UTF-8 code-point table, in Dafny

This project models two small programs from a terminal-emulator test kit.

**VT Scope** (`bin/vtscope.py`) is a debugging aid. It loads a captured terminal session and plays it back to connected terminals one chunk at a time. The model covers:

- **The escape-sequence table** (`Escapes`). The four patterns `vt100`, `vt52`, `dec` and `graphic` match the text after an ESC.
  - Each pattern is modelled as Python's regex engine runs it, including the backtracking of the `vt100` pattern.
  - A declarative description of each pattern's language comes with it.
  - Lemmas prove the recognizers sound and complete against those languages.
  - The patterns' first characters are disjoint, so the order of the table does not matter.
- **The chunk cursor** (`Cursor`). A session is the data, the window `[start, end)` of the chunk next up, and one log per client of everything sent to it.
  - `find_next_chunk` moves the window to the next chunk: a run of plain text up to the next ESC, or one escape sequence.
  - `broadcast_chunk` appends the window to every log.
  - `cmd_reset` and `cmd_open` return to the first chunk.
  - The operator's lines are modelled too: the preview, the spaced-out sequence and the end-of-data notice.
- **The replay commands** (`Replay`).
  - `cmd_step` sends chunks one by one. It stops after the count, or at the end of the data. A negative count plays to the end.
  - `cmd_seek` sends chunks until the chunk next up contains the position. It first resets when the position is at or before the cursor.
  - The model proves that the clients receive exactly the bytes the cursor passes over, contiguously and in order.
  - A worked three-chunk capture is proved end to end.
- **Python formatting** (`Numerals`, `Strings`): `%d`, `%x`, `'%*s'` and `sep.join`. Digit formatting has a proved inverse and proved length bounds.

**The code-point dumper** (`test_data/utf-8.py`) prints a table of code points so a terminal's rendering can be checked by eye. The model (`CodeTable`) covers:

- `gen_range`, characterised by its successor relation. It is proved complete, increasing and empty exactly when no non-surrogate lies in the range.
- `wcfilter`, over an uninterpreted width function.
- The row layout of `print_range`. The rows are consecutive slices that cover the list. Rows are labelled by list position, so a label falls 0x800 behind the code point past the surrogate gap.
- The header of `print_header`, as written and with the intended column width.
- `pad` from `main`.
- The error cases: a number `chr` rejects, and a width that never advances the loop.

Three behaviours of VT Scope's code shape the model:

- `end_position` can run past the data. When no pattern matches after an ESC, the window is set to 15 characters regardless of the data's length. Slicing clamps it.
- A second `seek` to the same position is not always a no-op. When the first seek leaves the chunk next up starting exactly at the position, `pos <= start_position` holds again. The command then resets and replays from offset 0. A negative position always resets. `Replay.SeekAgain` states these cases.
- A client whose send fails is not tolerated. The exception ends the program.

## Model

| member | source | states |
|---|---|---|
| Escapes.Recognize | bin/vtscope.py:110-115 | a pattern's match ends strictly after its start, inside the data, and begins with a character that only that pattern accepts |
| Escapes.RecognizeExact | bin/vtscope.py:110-115 | each pattern matches only texts of its language; it fails exactly when no prefix at that position is in its language; a match is the longest such prefix, so `vt52` prefers its two-character `Y` form |
| Escapes.Vt100Sound | bin/vtscope.py:111 | a `vt100` match is `[`, an optional `?`, a parameter list whose every `;` is followed by a parameter character, and a final character from `:` to `~` |
| Escapes.Vt100Complete | bin/vtscope.py:111 | if the `vt100` pattern fails, no prefix at that position is a `vt100` sequence, despite the backtracking |
| Escapes.Vt100TailWithFallback | bin/vtscope.py:111 | once a `;` group has matched, the rest of the pattern cannot fail |
| Escapes.Vt100Tail | bin/vtscope.py:111 | the backtracking tail of the `vt100` pattern; `Vt100TailLongest` states that it returns the last closing position, and `Vt100TailWithFallback` that a matched `;` group cannot fail |
| Escapes.MatchVt100 | bin/vtscope.py:111 | `re.match` of the `vt100` pattern with the `?` retried; `Vt100Sound`, `Vt100Complete` and `Vt100Longest` state that it returns exactly the longest `vt100` text |
| Escapes.Vt100TailLongest | bin/vtscope.py:111 | the backtracking tail returns the last position that closes the parameter list with a final character; no later one does |
| Escapes.Vt100TextAt | bin/vtscope.py:111 | a `vt100` text read off the data is `[`, then a parameter list closed by a final character, with or without a leading `?` |
| Escapes.Vt100Longest | bin/vtscope.py:111 | a `vt100` match is the longest prefix at that position that is a `vt100` sequence |
| Escapes.InLanguageStarts | bin/vtscope.py:110-115 | every sequence of a pattern's language begins with a character that pattern accepts first |
| Escapes.AtMostOneMatches | bin/vtscope.py:110-115 | at any position at most one of the four patterns matches |
| Escapes.FirstMatch | bin/vtscope.py:151-155 | trying the patterns in a given order returns a pattern of the order that matches, with its match's end, or reports that none does |
| Escapes.FirstMatchIsFirst | bin/vtscope.py:151-155 | the pattern returned is the earliest in the order that matches: every pattern before it fails |
| Escapes.Classify | bin/vtscope.py:150-158 | the match after an ESC is a sequence of some pattern's language and no longer prefix is a sequence of any language; there is none exactly when no prefix is in any language |
| Escapes.OrderIrrelevant | bin/vtscope.py:152-155 | every order of the pattern table gives the same match |
| Cursor.Find | bin/vtscope.py:167-169 | `find` returns the first ESC at or after the start, or -1 when there is none |
| Cursor.Slice | bin/vtscope.py:192 | a slice is as long as the clamped range between its bounds, 0 for a reversed one, and character `k` is the data's character `i + k` |
| Cursor.SliceConcat | bin/vtscope.py:192 | adjacent windows together give the window spanning both |
| Cursor.Preview | bin/vtscope.py:171-173 | a run of at most 15 characters is shown whole; a longer run shows its first 15 characters and `...` |
| Cursor.FindNextChunk | bin/vtscope.py:140-176 | the window starts where the last ended; text runs to the next ESC or the end; an escape ends where the table's match after the ESC ends, or 15 past the ESC when nothing matches; the window always advances while inside the data |
| Cursor.Show | bin/vtscope.py:178-186 | the report carries the new window's start as its offset and describes the chunk that starts there, and the new window is exactly one chunk |
| Cursor.NextIsChunk | bin/vtscope.py:140-176 | `find_next_chunk` leaves the window exactly on the chunk that starts where the previous window ended, and describes that chunk |
| Cursor.Snippet | bin/vtscope.py:164-176 | the returned text is empty exactly at the end of the data |
| Cursor.Render | bin/vtscope.py:157-186 | a report prints one or two lines; `End of data.` is printed exactly at the end; the no-match diagnostic adds a line exactly for an unrecognised escape; every line begins with `E`, `N` or `U` |
| Cursor.Broadcast | bin/vtscope.py:188-192 | every client's log gains exactly the current window, and the cursor does not move |
| Cursor.AppendAllAt | bin/vtscope.py:190-192 | client `i` receives exactly what is sent, after what it already had |
| Cursor.AppendAllTwice | bin/vtscope.py:190-192 | sending one text and then another is sending their concatenation |
| Cursor.AppendAllNothing | bin/vtscope.py:190-192 | sending an empty window leaves every log as it was |
| Cursor.Reset | bin/vtscope.py:267-275 | the cursor restarts at offset 0 and shows the first chunk of the data, described as the chunk at offset 0; the shown chunk is `End` exactly for empty data |
| Cursor.Open | bin/vtscope.py:252-265 | the data is replaced, nothing of it counts as sent, and the clients stay attached |
| Replay.RenderAll | bin/vtscope.py:178-186 | every shown chunk prints one or two lines, and every line begins with `E`, `N` or `U` |
| Replay.Transcript | bin/vtscope.py:277-318 | a command prints one of its refusal lines exactly when it refuses, and then only that line; a command that moves prints a line or two for every chunk it showed |
| Replay.SendAndShow | bin/vtscope.py:292-294 | the clients receive exactly the bytes between the old and the new start, the cursor advances while inside the data, and the new window is exactly one chunk, the one the report describes |
| Replay.StepLoop | bin/vtscope.py:311-318 | a count of 0 shows nothing and leaves the session as it was; otherwise the cursor never moves back |
| Replay.StepLoopSends | bin/vtscope.py:311-318 | every client's log grows by exactly the bytes the cursor passes over, in order |
| Replay.StepLoopCount | bin/vtscope.py:311-318 | a positive count shows between 1 and `count` chunks; a negative count shows at least one |
| Replay.StepLoopStops | bin/vtscope.py:311-318 | the loop shows fewer than `count` chunks, or runs with a negative count, only when it has passed the end of the data |
| Replay.StepLoopEnds | bin/vtscope.py:311-318 | only the last report can be `End of data`, and it is exactly when the loop has passed the end |
| Replay.StepLoopWalks | bin/vtscope.py:311-318 | each round shows one chunk: the first starts where the window ended, each next where the one before ends, each report describes the chunk at its offset, and the cursor rests on the last one, its window exactly that chunk |
| Replay.Step | bin/vtscope.py:296-318 | refused exactly when the cursor is past the data; otherwise the default count is 1, at most `count` chunks are shown and fewer only at the end, only the last can be `End of data`, the chunks shown are consecutive chunks starting where the window ended, each report describing the chunk at its offset, and the cursor rests on the last of them, the cursor never moves back, and the clients receive the bytes passed over |
| Replay.ConsumedGrows | bin/vtscope.py:188-192 | moving the cursor forward consumes exactly the bytes between the two starts |
| Replay.StepKeepsConsumed | bin/vtscope.py:296-318 | after a step every client holds what it had at the last reset followed by `data[0:min(start, len(data))]` |
| Replay.SeekKeepsConsumed | bin/vtscope.py:277-294 | a seek keeps the same invariant; a seek that resets restarts it from the logs the clients held then |
| Replay.OpenStartsConsumed | bin/vtscope.py:252-275 | after `open` nothing of the new data counts as consumed, and the clients hold what they had |
| Replay.SeekLoop | bin/vtscope.py:292-294 | the corrected loop, which also stops at the end of the data: stops with `pos` before the window's end or at the end of the data, never starting past `pos`, having sent every byte passed over; after a round the window is exactly one chunk |
| Replay.SeekLoopWalks | bin/vtscope.py:292-294 | each round of the corrected loop shows one chunk, starting where the one before ends and described as the chunk at its offset, and the cursor rests on the last one |
| Replay.Seek | bin/vtscope.py:277-294 | the corrected command, whose loop also stops at the end of the data: refused exactly past the end of the data; a target at or before the cursor replays from offset 0; the cursor stops with the window containing the target, and that window is exactly one chunk; the chunks shown are consecutive and each report describes the chunk at its offset, from offset 0 after a reset and from the window's end otherwise; the clients receive the bytes passed over |
| Replay.SeekLoopAsWritten | bin/vtscope.py:292-294 | the loop as written, when it stops, has the target before the window's end and has sent the bytes passed over |
| Replay.SeekAsWritten | bin/vtscope.py:277-294 | the command as written refuses exactly past the end of the data |
| Replay.AsWrittenStuckAtEnd | bin/vtscope.py:145-148 | at the end of the data a further advance leaves the window where it is, so the loop as written never stops for a target at the end |
| Replay.AsWrittenSeekToEndHangs | bin/vtscope.py:285-294 | for a one-character capture, `seek 1` passes the guard and never stops, whatever the number of rounds |
| Replay.SeekToEndSendsAll | bin/vtscope.py:285-294 | the corrected seek to the end of the same capture stops, having sent the whole capture |
| Replay.LoopsAgree | bin/vtscope.py:292-294 | below the end of the data the loop as written and the corrected loop give the same result |
| Replay.SeekAgreesBelowEnd | bin/vtscope.py:277-294 | the corrected command differs from the command as written only for a target at the end of the data |
| Replay.SeekAgain | bin/vtscope.py:277-294 | for any target up to the data's length, a repeated seek to a non-negative target does nothing unless the cursor starts exactly at it; in that case, and always for a negative target, it replays from offset 0 |
| Replay.PlayToEnd | bin/vtscope.py:306-318 | after `open`, a negative step count delivers the whole capture to every client, once and in order |
| Replay.ThreeChunkCapture | bin/vtscope.py:140-176 | the capture `ESC[31m Hello ESC[0m` shows the colour sequence on open, then text of 5 characters, the reset sequence and the end; the client ends up with the whole capture |
| Numerals.Format | bin/vtscope.py:184 | digits of the base with no leading zero |
| Numerals.ValueOfFormat | test_data/utf-8.py:46 | reading the printed digits back gives the number |
| Numerals.FormatLength | test_data/utf-8.py:89 | a number has as many digits as its magnitude requires: base^(n-1) <= value < base^n |
| Numerals.FormatLengthMonotone | test_data/utf-8.py:89 | a smaller number never needs more digits |
| Numerals.Hex | test_data/utf-8.py:46 | `%x` writes a minus sign before a negative number and the base-16 digits otherwise |
| Strings.Join | bin/vtscope.py:164 | the joined text has every item and one separator between each two, and nothing else |
| Strings.JoinItem | bin/vtscope.py:164 | item `i` sits at position `i` times one more than the separator's length |
| Strings.JoinSep | bin/vtscope.py:164 | the separator fills the gap after every item but the last |
| Strings.PadLeft | test_data/utf-8.py:46 | the text is right-aligned in the field with spaces and never truncated |
| CodeTable.GenRange | test_data/utf-8.py:27-32 | every element lies in the range and outside the surrogates; the first is the first kept number and each is followed by the next kept number; empty for `end <= start` |
| CodeTable.GenRangeComplete | test_data/utf-8.py:32 | every non-surrogate number of the range is in the list |
| CodeTable.GenRangeIncreasing | test_data/utf-8.py:32 | the list is strictly increasing |
| CodeTable.GenRangeEmpty | test_data/utf-8.py:32 | the list is empty exactly when the range holds no non-surrogate number |
| CodeTable.SuccessorOffset | test_data/utf-8.py:32 | element `i` is the first plus `i`, plus 0x800 once the list has crossed the surrogates |
| CodeTable.SkipGap | test_data/utf-8.py:32 | from inside the surrogates the list continues at 0xE000 |
| CodeTable.WcFilter | test_data/utf-8.py:16-24 | a character of positive width is kept; whatever the character (width -1 or more), the result is printable when `x` and `X` are |
| CodeTable.Chr | test_data/utf-8.py:41 | a code point outside the surrogates is the character with that value |
| CodeTable.Cells | test_data/utf-8.py:41 | one filtered character per code point, in order |
| CodeTable.RowsFrom | test_data/utf-8.py:44-49 | there are no rows exactly when the loop starts past the list |
| CodeTable.RowAt | test_data/utf-8.py:44-49 | row `k` holds the `width` cells from list index `k * width` (fewer at the end) and is labelled with the first code point plus that index |
| CodeTable.RowSizes | test_data/utf-8.py:45 | every row has between 1 and `width` cells, and all but the last exactly `width` |
| CodeTable.RowsCover | test_data/utf-8.py:44-49 | the rows, concatenated, are the whole list in order |
| CodeTable.RowLabels | test_data/utf-8.py:40-46 | a row's label is its first code point less 0x800 when the list has crossed the surrogates; it equals the code point exactly when it has not |
| CodeTable.LabelPastGap | test_data/utf-8.py:40-46 | from 0xD7FF with one cell per row, the row showing U+E000 is labelled d800 |
| CodeTable.Pad | test_data/utf-8.py:89 | the label column is as wide as `end` has hex digits, one more for the minus sign of a negative `end` |
| CodeTable.LabelSep | test_data/utf-8.py:43 | an empty spacer is replaced by a space between the label and the cells |
| CodeTable.RowLineLength | test_data/utf-8.py:46-48 | a row whose label fits the column spans the label column, the separator, and one cell plus one spacer per cell |
| CodeTable.RowLine | test_data/utf-8.py:46-48 | one printed row: label, separator, cells joined by the spacer, and the spacer; `RowLineLength` states its length |
| CodeTable.LabelsFitPad | test_data/utf-8.py:46 | every row label is non-negative, below `end`, and fits the `pad` columns |
| CodeTable.ColumnLabels | test_data/utf-8.py:55-61 | the header labels are 3, 7, 11, …, one per complete group of four cells |
| CodeTable.LabelsFrom | test_data/utf-8.py:59-61 | the loop from `i` yields `i - 1, i + 3, …` while `i` does not exceed the width |
| CodeTable.HeaderCellsLength | test_data/utf-8.py:59-61 | when each label fits its column, each header cell spans a column plus a spacer |
| CodeTable.ColumnWidth | test_data/utf-8.py:56-58 | a column plus its spacer spans four cells with their spacers; for spacers of at most one character this is the width as written |
| CodeTable.HeaderLabelsFit | test_data/utf-8.py:60 | for widths up to 4096 every `+n` label fits a column of four characters |
| CodeTable.HeaderLength | test_data/utf-8.py:52-62 | the header spans the label column, the separator and one column plus spacer per label |
| CodeTable.HeaderCells | test_data/utf-8.py:57-59 | the `+n` header cells, each right-aligned in a column and followed by the spacer; `HeaderCellsLength` states their length |
| CodeTable.HeaderWith | test_data/utf-8.py:52-62 | `print_header` for a given column width; `HeaderLength` states its length and `HeaderMatchesRow` when it lines up with a row |
| CodeTable.Header | test_data/utf-8.py:52-62 | the header `print_header` prints, with the column width as written; `HeaderAsWrittenAligned` states that it lines up with a full row exactly for spacers of at most one character |
| CodeTable.HeaderMatchesRow | test_data/utf-8.py:45-62 | the header is as long as a full row exactly when one header column and its spacer span four cells and their spacers |
| CodeTable.HeaderAsWrittenAligned | test_data/utf-8.py:52-62 | with the column width as written, the header lines up with a full row exactly when the spacer has at most one character |
| CodeTable.HeaderAsWrittenTooWide | test_data/utf-8.py:56-58 | with a two-character spacer and width 4, the header as written is one character wider than the row |
| CodeTable.HeaderAligned | test_data/utf-8.py:52-62 | the header with the intended column width lines up with every full row, whatever the spacer |
| CodeTable.RangeLines | test_data/utf-8.py:35-49 | nothing is printed exactly when the range has no non-surrogate number; a number `chr` rejects fails before any row; a width of zero or less never finishes; otherwise one line per row |
| CodeTable.Dump | test_data/utf-8.py:85-92 | the header as written is always printed first; the rows follow it unless an error stops the table |
| CodeTable.TableAligned | test_data/utf-8.py:35-62 | for a width of whole four-cell columns up to 4096, a full row of the printed table is as long as the printed header exactly when the spacer has at most one character |
| CodeTable.TableAlignedIntended | test_data/utf-8.py:35-62 | for a width of whole four-cell columns up to 4096, every full row is as long as the header with the intended column width, whatever the spacer |

## Left out

- Python's regex engine: only the four patterns are modelled. Each is written as a recognizer that follows the engine's search order, not as a general regex matcher.
- The interactive loop (`run`, `dispatch_command`, readline history, and repeating the last command on a blank line). These are I/O.
- `cmd_accept` and the socket layer. Clients are given as a list of logs. A partial `send` and a failing connection are not modelled.
- `cmd_open`'s file read. The data read is a parameter of `Cursor.Open`, and the `Read N bytes` line and the dead `self.position = 0` assignment are omitted.
- `cmd_exit`, and parsing of command arguments with `int()`. The step count and seek target arrive as integers, and an unparsable argument is not modelled.
- `json.dumps` character escaping in the previews. `Cursor.Quote` only adds the quotes.
- Cursor.Snippet: always succeeds. Under Python 2, `json.dumps` of a byte string that is not valid UTF-8 raises `UnicodeDecodeError`: a 15-byte preview that cuts a multi-byte character (bin/vtscope.py:172-176), or a non-ASCII escape body joined with spaces (bin/vtscope.py:163-164). The `try` in `dispatch_command` is switched off (`if False:`, bin/vtscope.py:208), so that error ends the program.
- CodeTable.TableAligned: stated only for widths up to 4096. Wider tables have labels such as `+1003`, five characters, which overflow the four-character column an empty spacer gives, and `%*s` does not truncate them.
- The argument parser of the code-point dumper (`IntAction`, `get_parser`). The options arrive as an `Options` value.
- `wcwidth`, the foreign terminal-width library. It is an uninterpreted function parameter.
- The endless output for a row width of zero or less. It is reported as `EndlessRows` instead of an infinite list of lines.
- Numerals.Decimal: states only that the result is non-empty. Its digits are those of `Numerals.Format`, whose round trip is proved.
- `bin/hterm.py` and the rest of the repository are not part of this model.

## Findings

| source | as written | input that shows it | evidently intended | confidence | as-written member | corrected member |
|---|---|---|---|---|---|---|
| bin/vtscope.py:285-294 | `seek` admits `pos == len(data)`, but its loop `while end_position <= pos` can only stop once `end_position` exceeds `pos`. At the end of the data a further advance leaves `end_position == len(data)`, so the loop never stops. | `open` a one-character file, then `seek 1` | stop once the data is exhausted, having sent all of it | high, not executed | Replay.AsWrittenSeekToEndHangs | Replay.Seek |
| test_data/utf-8.py:56-58 | the header column is `4 + 4 * len(spacer) - 1` wide, plus the spacer. Four cells of a row span `4 * (1 + len(spacer))`. The two agree only for spacers of at most one character. | `-w 4` with a two-character spacer given to `-p`: the header line is 18 characters and the row line 17, and the `+3` label sits one column right of cell 3 | a column as wide as four cells and three spacers, `4 + 3 * len(spacer)`, so every `+n` label sits over cell `n` | medium, not executed | CodeTable.HeaderAsWrittenTooWide | CodeTable.HeaderAligned |

=== FILE: codetable.dfy ===
/** The code-point table dumper used to check a terminal's rendering of UTF-8:
    the numbers of a range without the UTF-16 surrogates, each shown as its
    character (or `x` / `X` when the terminal would not print it), laid out in
    rows of a fixed width under a header of column offsets. */
module CodeTable {
  import opened Wrappers
  import Numerals
  import Strings

  // ---------------------------------------------------------------------------
  // gen_range

  /** The numbers `gen_range` keeps: everything outside the surrogates
      0xD800..0xDFFF. */
  predicate Kept(x: int) {
    x < 0xD800 || x >= 0xE000
  }

  /** The first kept number at or after `x`, for an `x` at most one past a kept one. */
  function NextKept(x: int): int {
    if Kept(x) then x else 0xE000
  }

  /** `gen_range(start, end)`: the numbers of `[start, end)` without the
      surrogates, in order. Each element is followed by the next kept number. */
  function GenRange(start: int, end: int): (r: seq<int>)
    ensures end <= start ==> r == []
    ensures forall i :: 0 <= i < |r| ==> start <= r[i] < end && Kept(r[i])
    ensures |r| > 0 ==> r[0] == NextKept(start)
    ensures forall i :: 0 <= i < |r| - 1 ==> r[i + 1] == NextKept(r[i] + 1)
    decreases end - start
  {
    if end <= start then []
    else if Kept(start) then [start] + GenRange(start + 1, end)
    else GenRange(start + 1, end)
  }

  /** The list holds every kept number of the range. */
  lemma {:induction false} GenRangeComplete(start: int, end: int, x: int)
    requires start <= x < end && Kept(x)
    ensures x in GenRange(start, end)
    decreases end - start
  {
    if start < x {
      GenRangeComplete(start + 1, end, x);
    }
  }

  /** A list that steps from each kept number to the next one is strictly increasing. */
  lemma {:induction false} SuccessorIncreasing(r: seq<int>, i: nat, j: nat)
    requires forall k :: 0 <= k < |r| - 1 ==> r[k + 1] == NextKept(r[k] + 1)
    requires i < j < |r|
    ensures r[i] < r[j]
    decreases j - i
  {
    if i + 1 < j {
      SuccessorIncreasing(r, i + 1, j);
    }
  }

  lemma GenRangeIncreasing(start: int, end: int)
    ensures forall i, j :: 0 <= i < j < |GenRange(start, end)| ==> GenRange(start, end)[i] < GenRange(start, end)[j]
  {
    var r := GenRange(start, end);
    forall i, j | 0 <= i < j < |r|
      ensures r[i] < r[j]
    {
      SuccessorIncreasing(r, i, j);
    }
  }

  /** The list is empty exactly when the range holds no kept number. */
  lemma GenRangeEmpty(start: int, end: int)
    ensures GenRange(start, end) == [] <==> forall x :: start <= x < end ==> !Kept(x)
  {
    forall x | start <= x < end && Kept(x)
      ensures GenRange(start, end) != []
    {
      GenRangeComplete(start, end, x);
    }
  }

  /** Element `i` lies `i` past the first element, plus the 0x800 surrogates when
      the list runs from below the gap to above it. */
  lemma {:induction false} SuccessorOffset(r: seq<int>, i: nat)
    requires |r| > 0 && Kept(r[0])
    requires forall k :: 0 <= k < |r| - 1 ==> r[k + 1] == NextKept(r[k] + 1)
    requires i < |r|
    ensures Kept(r[i])
    ensures r[i] == r[0] + i + Gap(r[0], r[i])
  {
    if i > 0 {
      SuccessorOffset(r, i - 1);
      assert r[i] == NextKept(r[i - 1] + 1);
    }
  }

  /** The number of surrogates between two kept numbers `a <= b`. */
  function Gap(a: int, b: int): int {
    if a < 0xD800 <= b then 0x800 else 0
  }

  // ---------------------------------------------------------------------------
  // wcfilter

  /** `wcfilter(ch)` over the terminal width function `wcwidth`: a visible
      character is kept, and when `x` and `X` are printable the result always
      is, whatever the character. */
  function WcFilter(ch: char, wcwidth: char -> int): (r: char)
    ensures wcwidth(ch) > 0 ==> r == ch
    ensures wcwidth('x') > 0 && wcwidth('X') > 0 && wcwidth(ch) >= -1 ==> wcwidth(r) > 0
  {
    var width := wcwidth(ch);
    if width == -1 then 'x'
    else if width == 0 then 'X'
    else ch
  }

  /** What `chr` accepts. */
  predicate IsCodePoint(x: int) {
    0 <= x < 0x11_0000
  }

  /** `chr(x)` for a code point outside the surrogates. */
  function Chr(x: int): (c: char)
    requires IsCodePoint(x) && Kept(x)
    ensures c as int == x
  {
    x as char
  }

  /** `[wcfilter(chr(x)) for x in codepoints]`. */
  function Cells(cps: seq<int>, wcwidth: char -> int): (r: seq<char>)
    requires forall i :: 0 <= i < |cps| ==> IsCodePoint(cps[i]) && Kept(cps[i])
    ensures |r| == |cps|
    ensures forall i :: 0 <= i < |cps| ==> r[i] == WcFilter(Chr(cps[i]), wcwidth)
  {
    seq(|cps|, i requires 0 <= i < |cps| => WcFilter(Chr(cps[i]), wcwidth))
  }

  // ---------------------------------------------------------------------------
  // Row layout of print_range

  /** One printed row: its label and the cells it shows. */
  datatype Row = Row(number: int, cells: seq<char>)

  function Min(a: int, b: int): int {
    if a <= b then a else b
  }

  /** The rows `print_range` prints from list index `i` on: each takes the next
      `width` cells (fewer at the end), and is labelled with the first code point
      plus its list index. */
  function RowsFrom(cells: seq<char>, width: nat, first: int, i: nat): (rows: seq<Row>)
    requires width > 0
    ensures rows == [] <==> i >= |cells|
    decreases |cells| - i
  {
    if i >= |cells| then []
    else [Row(first + i, cells[i..Min(i + width, |cells|)])] + RowsFrom(cells, width, first, i + width)
  }

  /** Row `k` starts `k` widths after `i`: it holds the next `width` cells from
      there (fewer at the end) and its number is `first` plus that list index. */
  lemma {:induction false} RowAt(cells: seq<char>, width: nat, first: int, i: nat, k: nat)
    requires width > 0 && k < |RowsFrom(cells, width, first, i)|
    ensures i + k * width < |cells|
    ensures RowsFrom(cells, width, first, i)[k]
              == Row(first + i + k * width, cells[i + k * width..Min(i + k * width + width, |cells|)])
    decreases k
  {
    if k > 0 {
      RowAt(cells, width, first, i + width, k - 1);
      assert i + width + (k - 1) * width == i + k * width;
    }
  }

  /** Every row holds at least one and at most `width` cells, and all rows but
      the last hold exactly `width`. */
  lemma RowSizes(cells: seq<char>, width: nat, first: int, i: nat, k: nat)
    requires width > 0 && k < |RowsFrom(cells, width, first, i)|
    ensures var rows := RowsFrom(cells, width, first, i);
            && 1 <= |rows[k].cells| <= width
            && (k < |rows| - 1 ==> |rows[k].cells| == width)
  {
    var rows := RowsFrom(cells, width, first, i);
    RowAt(cells, width, first, i, k);
    if k < |rows| - 1 {
      RowAt(cells, width, first, i, k + 1);
      assert i + (k + 1) * width == i + k * width + width;
    }
  }

  /** The cells of a list of rows, in order. */
  function Flatten(rows: seq<Row>): seq<char> {
    if rows == [] then [] else rows[0].cells + Flatten(rows[1..])
  }

  /** The rows cover the list in order, each cell exactly once. */
  lemma {:induction false} RowsCover(cells: seq<char>, width: nat, first: int, i: nat)
    requires width > 0 && i <= |cells|
    ensures Flatten(RowsFrom(cells, width, first, i)) == cells[i..]
    decreases |cells| - i
  {
    var rows := RowsFrom(cells, width, first, i);
    if i < |cells| {
      var e := Min(i + width, |cells|);
      RowsCover(cells, width, first, e);
      if e < |cells| {
        assert rows[1..] == RowsFrom(cells, width, first, i + width);
      } else {
        assert rows[1..] == [];
      }
      assert cells[i..] == cells[i..e] + cells[e..];
    }
  }

  /** Row labels count list positions, not code points: a row's label is the
      code point of its first cell, less the 0x800 surrogates when the list
      crosses the gap before that row. */
  lemma RowLabels(start: int, end: int, cells: seq<char>, width: nat, k: nat)
    requires width > 0 && |GenRange(start, end)| == |cells| > 0
    requires k < |RowsFrom(cells, width, GenRange(start, end)[0], 0)|
    ensures var cps := GenRange(start, end);
            var row := RowsFrom(cells, width, cps[0], 0)[k];
            && k * width < |cps|
            && row.cells != [] && row.cells[0] == cells[k * width]
            && row.number == cps[0] + k * width
            && row.number == cps[k * width] - Gap(cps[0], cps[k * width])
            && (row.number == cps[k * width] <==> Gap(cps[0], cps[k * width]) == 0)
  {
    var cps := GenRange(start, end);
    RowLabelsOf(cps, cells, width, k);
  }

  /** `RowLabels` for any list of kept numbers in which each is followed by the
      next kept one. */
  lemma RowLabelsOf(cps: seq<int>, cells: seq<char>, width: nat, k: nat)
    requires width > 0 && |cps| == |cells| > 0 && Kept(cps[0])
    requires forall i :: 0 <= i < |cps| - 1 ==> cps[i + 1] == NextKept(cps[i] + 1)
    requires k < |RowsFrom(cells, width, cps[0], 0)|
    ensures var row := RowsFrom(cells, width, cps[0], 0)[k];
            && k * width < |cps|
            && row.cells != [] && row.cells[0] == cells[k * width]
            && row.number == cps[0] + k * width
            && row.number == cps[k * width] - Gap(cps[0], cps[k * width])
            && (row.number == cps[k * width] <==> Gap(cps[0], cps[k * width]) == 0)
  {
    RowAt(cells, width, cps[0], 0, k);
    SuccessorOffset(cps, k * width);
  }

  /** From inside the surrogates the list continues at 0xE000. */
  lemma {:induction false} SkipGap(start: int, end: int)
    requires 0xD800 <= start <= 0xE000
    ensures GenRange(start, end) == GenRange(0xE000, end)
    decreases 0xE000 - start
  {
    if start < 0xE000 && start < end {
      SkipGap(start + 1, end);
    }
  }

  /** Starting at 0xD7FF, one cell per row: the second row shows U+E000 but is
      numbered 0xD800. */
  lemma LabelPastGap(wcwidth: char -> int)
    ensures var cps := GenRange(0xD7FF, 0xE001);
            && cps == [0xD7FF, 0xE000]
            && RowsFrom(Cells(cps, wcwidth), 1, cps[0], 0)[1] == Row(0xD800, [WcFilter(Chr(0xE000), wcwidth)])
  {
    SkipGap(0xD800, 0xE001);
    var cps := GenRange(0xD7FF, 0xE001);
    assert cps == [0xD7FF] + GenRange(0xE000, 0xE001);
    assert GenRange(0xE000, 0xE001) == [0xE000] + GenRange(0xE001, 0xE001);
    var cells := Cells(cps, wcwidth);
    var rows := RowsFrom(cells, 1, cps[0], 0);
    assert rows[1..] == RowsFrom(cells, 1, cps[0], 1);
    RowAt(cells, 1, cps[0], 0, 1);
  }

  // ---------------------------------------------------------------------------
  // Rendering

  /** The table's options; an absent `-p` is the default `|`. */
  datatype Options = Options(start: int, end: int, width: int, spacer: string)

  /** The defaults: code points 0 to 0x7FF, 64 per row, separated by `|`. */
  const Defaults: Options := Options(0, 0x800, 64, "|")

  /** `pad`: as many columns as `end` has hex digits. */
  function Pad(opts: Options): (pad: nat)
    ensures opts.end >= 0 ==> pad == |Numerals.Format(opts.end, 16)|
    ensures opts.end < 0 ==> pad == 1 + |Numerals.Format(-opts.end, 16)|
  {
    |Numerals.Hex(opts.end)|
  }

  /** The text between a row's label and its cells: the spacer, or a space when
      the spacer is empty. */
  function LabelSep(spacer: string): (r: string)
    ensures |r| >= 1
    ensures spacer != "" ==> r == spacer
  {
    if spacer == "" then " " else spacer
  }

  /** One printed row: the hex label right-aligned in `pad` columns, then the
      cells joined by the spacer, then the spacer once more. */
  function RowLine(pad: nat, spacer: string, row: Row): string {
    Strings.PadLeft(Numerals.Hex(row.number), pad) + LabelSep(spacer) + Strings.Join(spacer, row.cells) + spacer
  }

  /** `n` spans of `a` fill as much as `4 * n` spans of `b` exactly when `a` is
      four times `b`. */
  lemma TimesFourfold(n: nat, a: nat, b: nat)
    requires n > 0
    ensures Numerals.Times(n, a) == Numerals.Times(4 * n, b) <==> a == 4 * b
  {
    Numerals.TimesFour(n, b);
    if a < 4 * b {
      Numerals.TimesStrict(n, a, 4 * b);
    } else if 4 * b < a {
      Numerals.TimesStrict(n, 4 * b, a);
    }
  }

  /** A row whose label fits its column spans the label column, the separator,
      and one cell plus one spacer per cell. */
  lemma RowLineLength(pad: nat, spacer: string, row: Row)
    requires |Numerals.Hex(row.number)| <= pad && |row.cells| > 0
    ensures |RowLine(pad, spacer, row)| == pad + |LabelSep(spacer)| + Numerals.Times(|row.cells|, 1 + |spacer|)
  {
    Numerals.TimesJoin(|row.cells|, |spacer|);
  }

  /** No row label is wider than `pad`: a label never exceeds the code point of
      its row's first cell, which is below `end`. */
  lemma LabelsFitPad(opts: Options, cells: seq<char>, k: nat)
    requires opts.width > 0
    requires var cps := GenRange(opts.start, opts.end);
             |cps| == |cells| && |cps| > 0 && IsCodePoint(cps[0])
    requires k < |RowsFrom(cells, opts.width, GenRange(opts.start, opts.end)[0], 0)|
    ensures var row := RowsFrom(cells, opts.width, GenRange(opts.start, opts.end)[0], 0)[k];
            0 <= row.number < opts.end && |Numerals.Hex(row.number)| <= Pad(opts)
  {
    var cps := GenRange(opts.start, opts.end);
    var row := RowsFrom(cells, opts.width, cps[0], 0)[k];
    RowLabels(opts.start, opts.end, cells, opts.width, k);
    Numerals.FormatLengthMonotone(row.number, opts.end, 16);
  }

  /** The labels of the header: `i - 1` for `i = 4, 8, ...` up to the width. */
  function ColumnLabels(width: int): (r: seq<int>)
    ensures |r| == if width < 4 then 0 else width / 4
    ensures forall k :: 0 <= k < |r| ==> r[k] == 4 * k + 3
  {
    LabelsFrom(width, 4)
  }

  function LabelsFrom(width: int, i: int): (r: seq<int>)
    ensures |r| == if width < i then 0 else (width - i) / 4 + 1
    ensures forall k :: 0 <= k < |r| ==> r[k] == i - 1 + 4 * k
    decreases width - i
  {
    if i > width then [] else [i - 1] + LabelsFrom(width, i + 4)
  }

  /** The header cells: each label, prefixed with `+`, right-aligned in a column
      and followed by the spacer. */
  function HeaderCells(spacer: string, column: nat, labels: seq<int>): string {
    if labels == [] then ""
    else Strings.PadLeft("+" + Numerals.Hex(labels[0]), column) + spacer + HeaderCells(spacer, column, labels[1..])
  }

  /** Every label, with its `+`, fits a column of `column` characters. */
  predicate LabelsFit(labels: seq<int>, column: nat) {
    labels == [] || (1 + |Numerals.Hex(labels[0])| <= column && LabelsFit(labels[1..], column))
  }

  /** `LabelsFit` holds when each label fits on its own. */
  lemma {:induction false} EachLabelFits(labels: seq<int>, column: nat)
    requires forall k :: 0 <= k < |labels| ==> 1 + |Numerals.Hex(labels[k])| <= column
    ensures LabelsFit(labels, column)
    decreases |labels|
  {
    if labels != [] {
      var rest := labels[1..];
      forall k | 0 <= k < |rest|
        ensures 1 + |Numerals.Hex(rest[k])| <= column
      {
        assert rest[k] == labels[k + 1];
      }
      EachLabelFits(rest, column);
    }
  }

  /** When every label fits its column, each header cell is a column plus a
      spacer wide. */
  lemma {:induction false} HeaderCellsLength(spacer: string, column: nat, labels: seq<int>)
    requires LabelsFit(labels, column)
    ensures |HeaderCells(spacer, column, labels)| == Numerals.Times(|labels|, column + |spacer|)
  {
    if labels != [] {
      var rest := labels[1..];
      HeaderCellsLength(spacer, column, rest);
      HeaderCellWidth(labels[0], column);
      var head := Strings.PadLeft("+" + Numerals.Hex(labels[0]), column);
      assert HeaderCells(spacer, column, labels) == head + spacer + HeaderCells(spacer, column, rest);
    }
  }

  /** A label that fits its column fills it exactly. */
  lemma HeaderCellWidth(n: int, column: nat)
    requires 1 + |Numerals.Hex(n)| <= column
    ensures |Strings.PadLeft("+" + Numerals.Hex(n), column)| == column
  {
  }

  /** `print_header` with a given column width: blank label column, label
      separator, then the column labels. */
  function HeaderWith(opts: Options, column: nat): string {
    Strings.Spaces(Pad(opts)) + LabelSep(opts.spacer) + HeaderCells(opts.spacer, column, ColumnLabels(opts.width))
  }

  /** The column width as written: 4, widened by `4 * |spacer| - 1` for a
      non-empty spacer. */
  function ColumnWidthAsWritten(spacer: string): nat {
    if spacer == "" then 4 else 4 + 4 * |spacer| - 1
  }

  /** The column width that puts each `+n` label over cell `n` of a full row:
      four cells and the three spacers between them. */
  function ColumnWidth(spacer: string): (w: nat)
    ensures w + |spacer| == 4 * (1 + |spacer|)
    ensures |spacer| <= 1 ==> w == ColumnWidthAsWritten(spacer)
  {
    4 + 3 * |spacer|
  }

  /** A header label of the tables this checks (up to 4096 columns) fits the
      narrowest column. */
  lemma HeaderLabelsFit(width: int, column: nat)
    requires width <= 4096 && column >= 4
    ensures var labels := ColumnLabels(width);
            forall k :: 0 <= k < |labels| ==> 1 + |Numerals.Hex(labels[k])| <= column
  {
    var labels := ColumnLabels(width);
    forall k | 0 <= k < |labels|
      ensures 1 + |Numerals.Hex(labels[k])| <= column
    {
      Numerals.FormatLength(labels[k], 16);
      var n := |Numerals.Format(labels[k], 16)|;
      if n > 3 {
        Numerals.PowStep(16, 3);
        assert Numerals.Pow(16, 3) == 4096;
        PowMono(3, n - 1);
      }
    }
  }

  lemma {:induction false} PowMono(a: nat, b: nat)
    requires a <= b
    ensures Numerals.Pow(16, a) <= Numerals.Pow(16, b)
    decreases b - a
  {
    if a < b {
      PowMono(a, b - 1);
      Numerals.PowStep(16, b - 1);
    }
  }

  /** The length of a header whose labels fit their columns. */
  lemma HeaderLength(opts: Options, column: nat)
    requires opts.width <= 4096 && column >= 4
    ensures |HeaderWith(opts, column)|
              == Pad(opts) + |LabelSep(opts.spacer)| + Numerals.Times(|ColumnLabels(opts.width)|, column + |opts.spacer|)
  {
    HeaderLabelsFit(opts.width, column);
    EachLabelFits(ColumnLabels(opts.width), column);
    HeaderCellsLength(opts.spacer, column, ColumnLabels(opts.width));
  }

  /** The header lines up with a full row (a width of whole four-cell columns)
      exactly when one header column and its spacer span four cells and their
      spacers. */
  lemma HeaderMatchesRow(opts: Options, row: Row, column: nat)
    requires 4 <= opts.width <= 4096 && opts.width % 4 == 0 && column >= 4
    requires |row.cells| == opts.width && |Numerals.Hex(row.number)| <= Pad(opts)
    ensures (|HeaderWith(opts, column)| == |RowLine(Pad(opts), opts.spacer, row)|)
              <==> column + |opts.spacer| == 4 * (1 + |opts.spacer|)
  {
    var k := |opts.spacer|;
    var fixed := Pad(opts) + |LabelSep(opts.spacer)|;
    var n := |ColumnLabels(opts.width)|;
    HeaderLength(opts, column);
    RowLineLength(Pad(opts), opts.spacer, row);
    WholeColumns(opts.width, n);
    TimesFourfold(n, column + k, 1 + k);
    SameExtra(|HeaderWith(opts, column)|, |RowLine(Pad(opts), opts.spacer, row)|, fixed,
      Numerals.Times(n, column + k), Numerals.Times(4 * n, 1 + k), column + k == 4 * (1 + k));
  }

  /** A width of whole four-cell columns is four times its number of column labels. */
  lemma WholeColumns(width: int, n: nat)
    requires width >= 4 && width % 4 == 0 && n == |ColumnLabels(width)|
    ensures n > 0 && width == 4 * n
  {
  }

  /** Two lengths that add the same amount to `header` and `cells` are equal
      exactly when those are. */
  lemma SameExtra(h: int, r: int, fixed: int, header: int, cells: int, same: bool)
    requires h == fixed + header && r == fixed + cells
    requires header == cells <==> same
    ensures h == r <==> same
  {
  }

  /** With the column width as written, the header lines up with a full row of
      the table (a width of whole four-cell columns) exactly when the spacer
      has at most one character. */
  lemma HeaderAsWrittenAligned(opts: Options, row: Row)
    requires 4 <= opts.width <= 4096 && opts.width % 4 == 0
    requires |row.cells| == opts.width && |Numerals.Hex(row.number)| <= Pad(opts)
    ensures (|Header(opts)| == |RowLine(Pad(opts), opts.spacer, row)|) <==> |opts.spacer| <= 1
  {
    HeaderMatchesRow(opts, row, ColumnWidthAsWritten(opts.spacer));
  }

  /** With a spacer of two characters the header is one character too wide per column. */
  lemma HeaderAsWrittenTooWide(n: int)
    requires 0 <= n < 0x800
    ensures var opts := Defaults.(width := 4, spacer := "||");
            var row := Row(n, "abcd");
            |Header(opts)| == |RowLine(Pad(opts), opts.spacer, row)| + 1
  {
    var opts := Defaults.(width := 4, spacer := "||");
    var row := Row(n, "abcd");
    HeaderLength(opts, 11);
    assert Pad(opts) == 3;
    Numerals.FormatLengthMonotone(n, 0x800, 16);
    RowLineLength(Pad(opts), opts.spacer, row);
    assert Numerals.Times(1, 13) == 13 && Numerals.Times(4, 3) == 12;
  }

  /** With the intended column width the header lines up with every full row,
      whatever the spacer. */
  lemma HeaderAligned(opts: Options, row: Row)
    requires 4 <= opts.width <= 4096 && opts.width % 4 == 0
    requires |row.cells| == opts.width && |Numerals.Hex(row.number)| <= Pad(opts)
    ensures |HeaderIntended(opts)| == |RowLine(Pad(opts), opts.spacer, row)|
  {
    HeaderMatchesRow(opts, row, ColumnWidth(opts.spacer));
  }

  /** The header line `print_header` prints, with the column width as written. */
  function Header(opts: Options): string {
    HeaderWith(opts, ColumnWidthAsWritten(opts.spacer))
  }

  /** The header line with the intended column width. */
  function HeaderIntended(opts: Options): string {
    HeaderWith(opts, ColumnWidth(opts.spacer))
  }

  // ---------------------------------------------------------------------------
  // print_range and main

  /** Why the table cannot be printed in full: a number `chr` rejects, or a width
      that never advances through the list (the loop prints forever). */
  datatype TableError = NotACodePoint | EndlessRows

  /** The rows of a table whose range holds only code points. */
  function Rows(opts: Options, wcwidth: char -> int): (rows: seq<Row>)
    requires opts.width > 0
    requires var cps := GenRange(opts.start, opts.end);
             |cps| > 0 && forall i :: 0 <= i < |cps| ==> IsCodePoint(cps[i])
  {
    var cps := GenRange(opts.start, opts.end);
    RowsFrom(Cells(cps, wcwidth), opts.width, cps[0], 0)
  }

  /** `print_range`: nothing for an empty range; otherwise every number must be
      a code point (checked for the whole list before any row is printed), the
      width must advance the loop, and then one line per row. */
  function RangeLines(opts: Options, wcwidth: char -> int): (r: Result<seq<string>, TableError>)
    ensures var cps := GenRange(opts.start, opts.end);
            && (r == Failure(NotACodePoint) <==> exists i :: 0 <= i < |cps| && !IsCodePoint(cps[i]))
            && (r == Failure(EndlessRows) <==>
                  |cps| > 0 && opts.width <= 0 && forall i :: 0 <= i < |cps| ==> IsCodePoint(cps[i]))
            && (r == Success([]) <==> forall x :: opts.start <= x < opts.end ==> !Kept(x))
            && (r.Success? && r.value != [] ==>
                  && |cps| > 0
                  && (forall i :: 0 <= i < |cps| ==> IsCodePoint(cps[i]))
                  && opts.width > 0
                  && |r.value| == |Rows(opts, wcwidth)|
                  && forall k :: 0 <= k < |r.value| ==> r.value[k] == RowLine(Pad(opts), opts.spacer, Rows(opts, wcwidth)[k]))
  {
    var cps := GenRange(opts.start, opts.end);
    GenRangeEmpty(opts.start, opts.end);
    if cps == [] then Success([])
    else if !(forall i :: 0 <= i < |cps| ==> IsCodePoint(cps[i])) then Failure(NotACodePoint)
    else if opts.width <= 0 then Failure(EndlessRows)
    else
      var rows := Rows(opts, wcwidth);
      assert rows != [];
      Success(seq(|rows|, k requires 0 <= k < |rows| => RowLine(Pad(opts), opts.spacer, rows[k])))
  }

  /** What the dumper prints: the header, then the rows; an error stops it
      after the header. */
  datatype Output = Output(lines: seq<string>, error: Option<TableError>)

  /** `main` once the options are parsed. */
  function Dump(opts: Options, wcwidth: char -> int): (out: Output)
    ensures |out.lines| >= 1 && out.lines[0] == Header(opts)
    ensures out.error.Some? ==> |out.lines| == 1
    ensures out.error == None <==> RangeLines(opts, wcwidth).Success?
    ensures out.error == None ==> out.lines[1..] == RangeLines(opts, wcwidth).value
  {
    match RangeLines(opts, wcwidth)
    case Success(lines) => Output([Header(opts)] + lines, None)
    case Failure(e) => Output([Header(opts)], Some(e))
  }

  /** A full line of the printed table is as long as the printed header exactly
      when the spacer has at most one character. */
  lemma TableAligned(opts: Options, wcwidth: char -> int, k: nat)
    requires 4 <= opts.width <= 4096 && opts.width % 4 == 0
    requires RangeLines(opts, wcwidth).Success? && k < |RangeLines(opts, wcwidth).value|
    requires |Rows(opts, wcwidth)[k].cells| == opts.width
    ensures (|RangeLines(opts, wcwidth).value[k]| == |Header(opts)|) <==> |opts.spacer| <= 1
  {
    var cps := GenRange(opts.start, opts.end);
    var cells := Cells(cps, wcwidth);
    LabelsFitPad(opts, cells, k);
    HeaderAsWrittenAligned(opts, Rows(opts, wcwidth)[k]);
  }

  /** With the intended header every full line of the table lines up with it,
      whatever the spacer. */
  lemma TableAlignedIntended(opts: Options, wcwidth: char -> int, k: nat)
    requires 4 <= opts.width <= 4096 && opts.width % 4 == 0
    requires RangeLines(opts, wcwidth).Success? && k < |RangeLines(opts, wcwidth).value|
    requires |Rows(opts, wcwidth)[k].cells| == opts.width
    ensures |RangeLines(opts, wcwidth).value[k]| == |HeaderIntended(opts)|
  {
    var cps := GenRange(opts.start, opts.end);
    var cells := Cells(cps, wcwidth);
    LabelsFitPad(opts, cells, k);
    HeaderAligned(opts, Rows(opts, wcwidth)[k]);
  }
}

=== FILE: cursor.dfy ===
/** The chunk cursor of VT Scope: the loaded data, the half-open window
    `[start, end)` of the chunk that is next up, and the logs of the attached
    clients. `find_next_chunk` moves the window to the following chunk (a maximal
    run of plain text, or one escape sequence) and describes it;
    `broadcast_chunk` copies the window to every client; `cmd_reset` and
    `cmd_open` put the window back at the first chunk. */
module Cursor {
  import opened Wrappers
  import opened Escapes
  import Numerals
  import Strings

  /** Longest plain-text preview, and the lookahead used for an escape sequence
      no pattern recognizes. */
  const MaxText: nat := 15

  /** A client is modelled by the log of everything sent to it. */
  datatype Session = Session(data: string, start: nat, end: nat, logs: seq<string>)

  /** The chunk `find_next_chunk` has just moved to. */
  datatype Chunk =
    | End                                  // the window is past the data
    | Text(count: nat, preview: string)    // a run of characters without ESC
    | Escape(body: string, known: bool)    // ESC and what follows; known: some pattern matched

  /** One chunk shown to the operator, with the offset where it starts. */
  datatype Report = Report(offset: nat, chunk: Chunk)

  /** The state invariant: the window never runs backwards, and it is never
      empty while it starts inside the data. */
  predicate Valid(s: Session) {
    s.start <= s.end && (s.start < |s.data| ==> s.start < s.end)
  }

  // ---------------------------------------------------------------------------
  // Python string helpers

  /** `data.find(c, from)`: the first index at or after `from` holding `c`, or -1. */
  function Find(data: string, c: char, from: nat): (r: int)
    requires from <= |data|
    ensures r == -1 || from <= r < |data|
    ensures r == -1 ==> forall j :: from <= j < |data| ==> data[j] != c
    ensures r != -1 ==> data[r] == c && forall j :: from <= j < r ==> data[j] != c
    decreases |data| - from
  {
    if from == |data| then -1
    else if data[from] == c then from
    else Find(data, c, from + 1)
  }

  /** A position clamped to the data, as Python slicing clamps it. */
  function Clip(data: string, i: nat): (r: nat)
    ensures r <= |data| && r <= i
    ensures i <= |data| ==> r == i
  {
    if i <= |data| then i else |data|
  }

  /** `data[i:j]` for non-negative `i` and `j`: out-of-range bounds are clamped and
      a reversed range is empty. */
  function Slice(data: string, i: nat, j: nat): (r: string)
    ensures |r| == if i <= j then Clip(data, j) - Clip(data, i) else 0
    ensures forall k :: 0 <= k < |r| ==> r[k] == data[i + k]
  {
    if i <= j then data[Clip(data, i)..Clip(data, j)] else ""
  }

  /** Slicing is contiguous: the pieces `[i, j)` and `[j, k)` make up `[i, k)`. */
  lemma SliceConcat(data: string, i: nat, j: nat, k: nat)
    requires i <= j <= k
    ensures Slice(data, i, j) + Slice(data, j, k) == Slice(data, i, k)
  {
    assert data[Clip(data, i)..Clip(data, k)] == data[Clip(data, i)..Clip(data, j)] + data[Clip(data, j)..Clip(data, k)];
  }

  /** The plain-text preview: the run itself when it has at most `MaxText`
      characters, otherwise its first `MaxText` characters and `...`. */
  function Preview(run: string): (r: string)
    ensures |run| <= MaxText ==> r == run
    ensures |run| > MaxText ==> |r| == MaxText + 3 && r[..MaxText] == run[..MaxText] && r[MaxText..] == "..."
  {
    if |run| > MaxText then run[..MaxText] + "..." else run
  }

  // ---------------------------------------------------------------------------
  // find_next_chunk

  /** `find_next_chunk`: the window moves to start where it ended; past the data
      nothing else happens, otherwise its end moves to the end of the next chunk.
      A plain-text chunk runs up to the next ESC (or the end of the data); an
      escape chunk ends where the pattern table's match at the following
      character ends (the longest text of any kind there), or `MaxText`
      characters after the ESC if nothing matches. */
  function FindNextChunk(s: Session): (r: (Session, Chunk))
    ensures r.0.data == s.data && r.0.logs == s.logs
    ensures r.0.start == s.end
    ensures Valid(r.0)
    // terminal advance
    ensures r.1.End? <==> s.end >= |s.data|
    ensures s.end >= |s.data| ==> r.0.end == s.end
    // progress
    ensures s.end < |s.data| ==> s.end < r.0.end
    ensures r.0.end > |s.data| ==> s.end == r.0.end || (r.1.Escape? && !r.1.known)
    // plain text
    ensures r.1.Text? <==> s.end < |s.data| && s.data[s.end] != ESC
    ensures r.1.Text? ==>
              && r.0.end <= |s.data|
              && (forall i :: s.end <= i < r.0.end ==> s.data[i] != ESC)
              && (r.0.end < |s.data| ==> s.data[r.0.end] == ESC)
              && r.1.count == r.0.end - s.end
              && r.1.preview == Preview(s.data[s.end..r.0.end])
    // escape sequence
    ensures r.1.Escape? ==>
              && s.data[s.end] == ESC
              && r.1.body == Slice(s.data, s.end + 1, r.0.end)
              && (r.1.known <==> Classify(s.data, s.end + 1).Some?)
    ensures r.1.Escape? && r.1.known ==>
              && s.end + 2 <= r.0.end <= |s.data|
              && r.0.end == Classify(s.data, s.end + 1).value.end
              && exists k :: InLanguage(k, r.1.body)
    ensures r.1.Escape? && !r.1.known ==> r.0.end == s.end + MaxText
  {
    var st := s.end;
    if st >= |s.data| then
      (s.(start := st), End)
    else if s.data[st] == ESC then
      match Classify(s.data, st + 1)
      case Some(m) =>
        (s.(start := st, end := m.end), Escape(Slice(s.data, st + 1, m.end), true))
      case None =>
        (s.(start := st, end := st + MaxText), Escape(Slice(s.data, st + 1, st + MaxText), false))
    else
      var found := Find(s.data, ESC, st);
      var e := if found == -1 then |s.data| else found;
      (s.(start := st, end := e), Text(e - st, Preview(s.data[st..e])))
  }

  /** The end of the chunk that starts at `st`. */
  function ChunkEnd(data: string, st: nat): nat {
    FindNextChunk(Session(data, 0, st, [])).0.end
  }

  /** The chunk that starts at `st`, as `find_next_chunk` describes it. */
  function ChunkAt(data: string, st: nat): Chunk {
    FindNextChunk(Session(data, 0, st, [])).1
  }

  /** The window is exactly one chunk: the chunk that starts where it starts. */
  predicate OnChunk(s: Session) {
    s.end == ChunkEnd(s.data, s.start)
  }

  /** `find_next_chunk` always leaves the window on a chunk: the one that starts
      where the previous window ended, described as that chunk. */
  lemma NextIsChunk(s: Session)
    ensures OnChunk(FindNextChunk(s).0)
    ensures FindNextChunk(s).1 == ChunkAt(s.data, s.end)
  {
    var t := Session(s.data, 0, s.end, []);
    if s.end < |s.data| && s.data[s.end] == ESC {
      assert FindNextChunk(s).0.end == FindNextChunk(t).0.end;
      assert FindNextChunk(s).1 == FindNextChunk(t).1;
    } else if s.end < |s.data| {
      assert FindNextChunk(s).0.end == FindNextChunk(t).0.end;
      assert FindNextChunk(s).1 == FindNextChunk(t).1;
    }
  }

  /** `show_next_chunk`: move to the next chunk and report it with its offset. */
  function Show(s: Session): (r: (Session, Report))
    ensures r.0 == FindNextChunk(s).0
    ensures r.1 == Report(s.end, FindNextChunk(s).1)
    ensures OnChunk(r.0) && r.1.chunk == ChunkAt(s.data, s.end)
  {
    NextIsChunk(s);
    var (s', c) := FindNextChunk(s);
    (s', Report(s'.start, c))
  }

  // ---------------------------------------------------------------------------
  // What the operator sees

  /** `json.dumps` of a string, without its character escaping. */
  function Quote(text: string): string {
    "\"" + text + "\""
  }

  /** The text `find_next_chunk` returns: empty exactly at the end of the data. */
  function Snippet(c: Chunk): (r: string)
    ensures r == "" <==> c.End?
  {
    match c
    case End => ""
    case Escape(body, _) => "ESC " + Strings.Join(" ", body)
    case Text(count, preview) => Numerals.Decimal(count) + " chars: " + Quote(preview)
  }

  /** The lines printed for one report: a diagnostic when no pattern matched,
      then either the chunk or the end-of-data notice. */
  function Render(rep: Report): (lines: seq<string>)
    ensures 1 <= |lines| <= 2
    ensures lines[|lines| - 1] == "End of data." <==> rep.chunk.End?
    ensures |lines| == 2 <==> rep.chunk.Escape? && !rep.chunk.known
    ensures forall i :: 0 <= i < |lines| ==> |lines[i]| > 0 && lines[i][0] in {'E', 'N', 'U'}
  {
    var diagnostic := if rep.chunk.Escape? && !rep.chunk.known then ["Unable to find end of escape sequence."] else [];
    var snippet := Snippet(rep.chunk);
    var last := if snippet == "" then "End of data." else "Next up: offset " + Numerals.Decimal(rep.offset) + ", " + snippet;
    assert last[0] == 'E' <==> snippet == "";
    diagnostic + [last]
  }

  // ---------------------------------------------------------------------------
  // Clients

  /** Every client's log with `sent` appended, in client order. */
  function AppendAll(logs: seq<string>, sent: string): (r: seq<string>)
    ensures |r| == |logs|
  {
    if logs == [] then [] else [logs[0] + sent] + AppendAll(logs[1..], sent)
  }

  /** Client `i` receives exactly `sent`, after what it had. */
  lemma {:induction false} AppendAllAt(logs: seq<string>, sent: string, i: nat)
    requires i < |logs|
    ensures AppendAll(logs, sent)[i] == logs[i] + sent
    decreases i
  {
    if i > 0 {
      AppendAllAt(logs[1..], sent, i - 1);
    }
  }

  /** Sending nothing leaves every log as it was. */
  lemma {:induction false} AppendAllNothing(logs: seq<string>)
    ensures AppendAll(logs, "") == logs
    decreases |logs|
  {
    if logs != [] {
      AppendAllNothing(logs[1..]);
      assert logs[0] + "" == logs[0];
      assert [logs[0]] + logs[1..] == logs;
    }
  }

  /** Sending `x` and then `y` is sending `x + y`. */
  lemma {:induction false} AppendAllTwice(logs: seq<string>, x: string, y: string)
    ensures AppendAll(AppendAll(logs, x), y) == AppendAll(logs, x + y)
    decreases |logs|
  {
    if logs != [] {
      AppendAllTwice(logs[1..], x, y);
      var once := AppendAll(logs, x);
      assert once[0] == logs[0] + x && once[1..] == AppendAll(logs[1..], x);
      assert logs[0] + x + y == logs[0] + (x + y);
    }
  }

  /** An empty window sends nothing. */
  lemma SentNothing(logs: seq<string>, data: string, i: nat)
    ensures AppendedTo(logs, logs, Slice(data, i, i))
  {
    assert Slice(data, i, i) == "";
    AppendAllNothing(logs);
  }

  /** Every log in `after` is the corresponding log in `before` followed by `sent`. */
  predicate AppendedTo(before: seq<string>, after: seq<string>, sent: string) {
    after == AppendAll(before, sent)
  }

  /** Appending in two steps is appending the concatenation. */
  lemma AppendedTwice(a: seq<string>, b: seq<string>, c: seq<string>, x: string, y: string)
    requires AppendedTo(a, b, x) && AppendedTo(b, c, y)
    ensures AppendedTo(a, c, x + y)
  {
    AppendAllTwice(a, x, y);
  }

  /** `broadcast_chunk`: every client receives the current window; the cursor
      does not move. */
  function Broadcast(s: Session): (r: Session)
    ensures r.data == s.data && r.start == s.start && r.end == s.end
    ensures AppendedTo(s.logs, r.logs, Slice(s.data, s.start, s.end))
  {
    var sent := Slice(s.data, s.start, s.end);
    s.(logs := AppendAll(s.logs, sent))
  }

  /** What has been sent since the last reset, if every chunk was broadcast. */
  function Consumed(s: Session): string {
    s.data[..Clip(s.data, s.start)]
  }

  // ---------------------------------------------------------------------------
  // cmd_reset and cmd_open

  /** `cmd_reset`: the window is emptied at offset 0 and moved to the first chunk. */
  function Reset(s: Session): (r: (Session, Report))
    ensures r.0.data == s.data && r.0.logs == s.logs && Valid(r.0)
    ensures r.0.start == 0 && r.1.offset == 0
    ensures |s.data| == 0 <==> r.1.chunk.End?
    ensures r.0 == FindNextChunk(Session(s.data, 0, 0, s.logs)).0
    ensures OnChunk(r.0) && r.1 == Report(0, ChunkAt(s.data, 0))
  {
    Show(s.(start := 0, end := 0))
  }

  /** `cmd_open` once the file has been read: the data is replaced and the
      cursor reset; the clients stay attached. */
  function Open(s: Session, data: string): (r: (Session, Report))
    ensures r.0.data == data && r.0.logs == s.logs && Valid(r.0)
    ensures r.0.start == 0 && Consumed(r.0) == ""
    ensures OnChunk(r.0)
  {
    Reset(s.(data := data))
  }
}

=== FILE: escapes.dfy ===
/** The escape-sequence table of VT Scope (`VTScope.re_escapes`): four regular
    expressions, each matched (Python `re.match`) at the character right after an
    ESC. Each becomes a recognizer `(data, p) -> Option<end>` that follows Python's
    backtracking, first-found semantics, and a predicate on strings saying which
    texts the pattern describes. Character classes are those of a Python 2 byte
    string pattern: `\s` is the six ASCII white-space characters, `\d` is 0-9. */
module Escapes {
  import opened Wrappers

  const ESC: char := '\U{1B}'

  /** The four keys of the pattern table. */
  datatype Kind = Vt100 | Vt52 | Dec | Graphic

  /** The table's entries in one fixed order. Python 2 dictionaries iterate in an
      order of their own; OrderIrrelevant shows that any order gives the same result. */
  const AllKinds: seq<Kind> := [Vt100, Vt52, Dec, Graphic]

  // ---------------------------------------------------------------------------
  // Character classes

  /** `\s`: space, tab, line feed, vertical tab, form feed, carriage return. */
  predicate IsSpace(c: char) {
    c == ' ' || '\t' <= c <= '\r'
  }

  /** `\d` and `0-9`. */
  predicate IsDigit(c: char) {
    '0' <= c <= '9'
  }

  /** `[0-9\b\s]`: inside a character class `\b` is the backspace character. */
  predicate IsParam(c: char) {
    IsDigit(c) || c == '\U{8}' || IsSpace(c)
  }

  /** `[\x3A-\x7E]`, the final character of a vt100 sequence (`:` to `~`);
      it contains `;` and `?`. */
  predicate IsFinal(c: char) {
    ':' <= c <= '~'
  }

  /** `[\x20-0x7e]` as written: the range from space to `0`, then the three
      literal characters `x`, `7` and `e`. */
  predicate IsVt52Arg(c: char) {
    ' ' <= c <= '0' || c == 'x' || c == '7' || c == 'e'
  }

  /** `[\x30-\x5A]`: `0` to `Z`. */
  predicate IsVt52Single(c: char) {
    '0' <= c <= 'Z'
  }

  /** `[012AB]`. */
  predicate IsCharset(c: char) {
    c == '0' || c == '1' || c == '2' || c == 'A' || c == 'B'
  }

  // ---------------------------------------------------------------------------
  // The texts each pattern describes

  /** `[0-9\b\s]*(;[0-9\b\s]+)*`: parameter characters and semicolons, where every
      semicolon is followed by a parameter character. */
  predicate IsParamList(b: string) {
    ParamSpan(b, 0, |b|)
  }

  /** `s[lo..hi]` is a parameter list, stated on positions of `s`. */
  predicate ParamSpan(s: string, lo: nat, hi: nat)
    requires lo <= hi <= |s|
  {
    forall i :: lo <= i < hi ==> ParamAt(s, i, hi)
  }

  /** Position `i` of a parameter list ending at `hi` is a parameter character, or a
      semicolon with a parameter character after it. */
  predicate ParamAt(s: string, i: nat, hi: nat)
    requires i < hi <= |s|
  {
    IsParam(s[i]) || (s[i] == ';' && i + 1 < hi && IsParam(s[i + 1]))
  }

  /** `\[\??([0-9\b\s]*(;[0-9\b\s]+)*)?[\x3A-\x7E]`. */
  predicate IsVt100Text(s: string) {
    && |s| >= 2
    && s[0] == '['
    && IsFinal(s[|s| - 1])
    && (IsParamList(s[1..|s| - 1]) || (|s| >= 3 && s[1] == '?' && IsParamList(s[2..|s| - 1])))
  }

  /** The texts the pattern of kind `k` describes. */
  predicate InLanguage(k: Kind, s: string) {
    match k
    case Vt100 => IsVt100Text(s)
    case Vt52 => (|s| == 2 && s[0] == 'Y' && IsVt52Arg(s[1])) || (|s| == 1 && IsVt52Single(s[0]))
    case Dec => |s| == 2 && s[0] == '#' && IsDigit(s[1])
    case Graphic => |s| == 2 && s[0] == '(' && IsCharset(s[1])
  }

  /** The characters a text of kind `k` can begin with. */
  predicate StartsKind(k: Kind, c: char) {
    match k
    case Vt100 => c == '['
    case Vt52 => IsVt52Single(c)
    case Dec => c == '#'
    case Graphic => c == '('
  }

  // ---------------------------------------------------------------------------
  // Recognizers

  /** The end of the longest run of parameter characters that starts at `i`. */
  function ParamRunEnd(data: string, i: nat): (e: nat)
    requires i <= |data|
    ensures i <= e <= |data|
    ensures forall j :: i <= j < e ==> IsParam(data[j])
    ensures e < |data| ==> !IsParam(data[e])
    decreases |data| - i
  {
    if i < |data| && IsParam(data[i]) then ParamRunEnd(data, i + 1) else i
  }

  /** The `(;[0-9\b\s]+)*[\x3A-\x7E]` part of the vt100 pattern, entered at the end
      `a` of a maximal parameter run. A parameter run can only be given back to a
      position that is again followed by a parameter character, which neither `;`
      nor the final class accepts, so backtracking inside runs never succeeds; what
      does succeed is dropping the last `;`-group, after which the `;` itself is
      the final character. `fallback` is that end, once a group has been taken. */
  function Vt100Tail(data: string, a: nat, fallback: Option<nat>): Option<nat>
    requires a <= |data|
    decreases |data| - a
  {
    if a + 1 < |data| && data[a] == ';' && IsParam(data[a + 1]) then
      Vt100Tail(data, ParamRunEnd(data, a + 1), Some(a + 1))
    else if a < |data| && IsFinal(data[a]) then Some(a + 1)
    else fallback
  }

  /** `re.match` of the vt100 pattern at `p`. The optional `?` is tried first;
      when the rest fails after it, the match is retried without it. */
  function MatchVt100(data: string, p: nat): Option<nat>
    requires p <= |data|
  {
    if p < |data| && data[p] == '[' then
      var q := p + 1;
      var withoutMark := Vt100Tail(data, ParamRunEnd(data, q), None);
      if q < |data| && data[q] == '?' then
        match Vt100Tail(data, ParamRunEnd(data, q + 1), None)
        case Some(e) => Some(e)
        case None => withoutMark
      else withoutMark
    else None
  }

  /** `re.match` of `(Y[\x20-0x7e]|[\x30-\x5A])` at `p`: the first alternative wins. */
  function MatchVt52(data: string, p: nat): Option<nat>
    requires p <= |data|
  {
    if p + 1 < |data| && data[p] == 'Y' && IsVt52Arg(data[p + 1]) then Some(p + 2)
    else if p < |data| && IsVt52Single(data[p]) then Some(p + 1)
    else None
  }

  /** `re.match` of `#\d` at `p`. */
  function MatchDec(data: string, p: nat): Option<nat>
    requires p <= |data|
  {
    if p + 1 < |data| && data[p] == '#' && IsDigit(data[p + 1]) then Some(p + 2) else None
  }

  /** `re.match` of `\([012AB]` at `p`. */
  function MatchGraphic(data: string, p: nat): Option<nat>
    requires p <= |data|
  {
    if p + 1 < |data| && data[p] == '(' && IsCharset(data[p + 1]) then Some(p + 2) else None
  }

  /** The table entry of kind `k`, matched at `p`: the end of the match, if any. */
  function Recognize(k: Kind, data: string, p: nat): (r: Option<nat>)
    requires p <= |data|
    ensures r.Some? ==> p < r.value <= |data| && StartsKind(k, data[p])
  {
    match k
    case Vt100 =>
      Vt100Bounds(data, p);
      MatchVt100(data, p)
    case Vt52 => MatchVt52(data, p)
    case Dec => MatchDec(data, p)
    case Graphic => MatchGraphic(data, p)
  }

  lemma {:induction false} Vt100TailBounds(data: string, a: nat, fallback: Option<nat>)
    requires a <= |data|
    ensures var r := Vt100Tail(data, a, fallback);
            r.Some? ==> (fallback.Some? && r.value == fallback.value) || a < r.value <= |data|
    decreases |data| - a
  {
    if a + 1 < |data| && data[a] == ';' && IsParam(data[a + 1]) {
      Vt100TailBounds(data, ParamRunEnd(data, a + 1), Some(a + 1));
    }
  }

  lemma Vt100Bounds(data: string, p: nat)
    requires p <= |data|
    ensures var r := MatchVt100(data, p);
            r.Some? ==> p < r.value <= |data| && data[p] == '['
  {
    if p < |data| && data[p] == '[' {
      Vt100TailBounds(data, ParamRunEnd(data, p + 1), None);
      if p + 1 < |data| && data[p + 1] == '?' {
        Vt100TailBounds(data, ParamRunEnd(data, p + 2), None);
      }
    }
  }

  // ---------------------------------------------------------------------------
  // Soundness and completeness of the vt100 recognizer

  lemma ParamSpanIsList(data: string, lo: nat, hi: nat)
    requires lo <= hi <= |data|
    ensures ParamSpan(data, lo, hi) <==> IsParamList(data[lo..hi])
  {
    var b := data[lo..hi];
    forall i | lo <= i < hi
      ensures ParamAt(data, i, hi) <==> ParamAt(b, i - lo, |b|)
    {
      assert b[i - lo] == data[i];
      if i + 1 < hi {
        assert b[i - lo + 1] == data[i + 1];
      }
    }
    if IsParamList(b) {
      forall i | lo <= i < hi
        ensures ParamAt(data, i, hi)
      {
        assert ParamAt(b, i - lo, |b|);
      }
    }
    if ParamSpan(data, lo, hi) {
      forall j | 0 <= j < |b|
        ensures ParamAt(b, j, |b|)
      {
        assert ParamAt(data, j + lo, hi);
      }
    }
  }

  /** Whatever the tail returns ends in a final character preceded by a parameter
      list that begins at `b`. */
  lemma {:induction false} Vt100TailSound(data: string, b: nat, a: nat, fallback: Option<nat>)
    requires b <= a <= |data|
    requires ParamSpan(data, b, a)
    requires fallback.Some? ==>
               b < fallback.value <= a && data[fallback.value - 1] == ';' && ParamSpan(data, b, fallback.value - 1)
    ensures var r := Vt100Tail(data, a, fallback);
            r.Some? ==> b < r.value <= |data| && IsFinal(data[r.value - 1]) && ParamSpan(data, b, r.value - 1)
    decreases |data| - a
  {
    if a + 1 < |data| && data[a] == ';' && IsParam(data[a + 1]) {
      var a' := ParamRunEnd(data, a + 1);
      assert ParamSpan(data, b, a') by {
        forall i | b <= i < a'
          ensures ParamAt(data, i, a')
        {
          if i < a {
            assert ParamAt(data, i, a);
          }
        }
      }
      Vt100TailSound(data, b, a', Some(a + 1));
    }
  }

  /** Once a `;`-group has been taken, the tail always matches. */
  lemma {:induction false} Vt100TailWithFallback(data: string, a: nat, f: nat)
    requires a <= |data|
    ensures Vt100Tail(data, a, Some(f)).Some?
    decreases |data| - a
  {
    if a + 1 < |data| && data[a] == ';' && IsParam(data[a + 1]) {
      Vt100TailWithFallback(data, ParamRunEnd(data, a + 1), a + 1);
    }
  }

  /** Every match of the vt100 recognizer is a text the pattern describes. */
  lemma Vt100Sound(data: string, p: nat)
    requires p <= |data|
    ensures var r := MatchVt100(data, p);
            r.Some? ==> p < r.value <= |data| && IsVt100Text(data[p..r.value])
  {
    if p < |data| && data[p] == '[' {
      Vt100SoundFrom(data, p, p + 1);
      if p + 1 < |data| && data[p + 1] == '?' {
        Vt100SoundFrom(data, p, p + 2);
      }
    }
  }

  /** The tail entered after `[` (at `b == p + 1`) or after `[?` (at `b == p + 2`)
      yields a vt100 text. */
  lemma Vt100SoundFrom(data: string, p: nat, b: nat)
    requires p < |data| && data[p] == '['
    requires b == p + 1 || (b == p + 2 && p + 1 < |data| && data[p + 1] == '?')
    ensures var r := Vt100Tail(data, ParamRunEnd(data, b), None);
            r.Some? ==> p < r.value <= |data| && IsVt100Text(data[p..r.value])
  {
    var a := ParamRunEnd(data, b);
    assert ParamSpan(data, b, a) by {
      forall i | b <= i < a
        ensures ParamAt(data, i, a)
      {
      }
    }
    Vt100TailSound(data, b, a, None);
    var r := Vt100Tail(data, a, None);
    if r.Some? {
      ParamSpanIsList(data, b, r.value - 1);
      Vt100TextOfSpan(data, p, b, r.value);
    }
  }

  /** `[`, an optional `?`, a parameter list and a final character, read off
      positions of `data`, form a vt100 text. */
  lemma Vt100TextOfSpan(data: string, p: nat, b: nat, e: nat)
    requires p < b < e <= |data|
    requires data[p] == '[' && IsFinal(data[e - 1]) && IsParamList(data[b..e - 1])
    requires b == p + 1 || (b == p + 2 && data[p + 1] == '?')
    ensures IsVt100Text(data[p..e])
  {
    var s := data[p..e];
    var inner := s[b - p..|s| - 1];
    assert |inner| == e - 1 - b;
    forall j | 0 <= j < |inner|
      ensures inner[j] == data[b + j]
    {
    }
    assert inner == data[b..e - 1];
  }

  /** The vt100 recognizer fails only when no prefix of the input at `p` is a text
      the pattern describes. */
  lemma Vt100Complete(data: string, p: nat)
    requires p <= |data|
    ensures MatchVt100(data, p).None? ==> forall e :: p < e <= |data| ==> !IsVt100Text(data[p..e])
  {
    if MatchVt100(data, p).None? {
      forall e | p < e <= |data|
        ensures !IsVt100Text(data[p..e])
      {
        if IsVt100Text(data[p..e]) {
          Vt100CompleteAt(data, p, e);
        }
      }
    }
  }

  lemma Vt100CompleteAt(data: string, p: nat, e: nat)
    requires p < e <= |data|
    requires IsVt100Text(data[p..e])
    ensures MatchVt100(data, p).Some?
  {
    var s := data[p..e];
    var q := p + 1;
    assert data[p] == s[0] == '[';
    if q < |data| && data[q] == '?' {
      assert ParamRunEnd(data, q) == q;
    } else {
      assert s[1] == data[q];
      assert |s| == e - p && |s| >= 2;
      var inner := s[1..|s| - 1];
      forall j | 0 <= j < |inner|
        ensures inner[j] == data[q + j]
      {
      }
      assert inner == data[q..e - 1];
      ParamSpanIsList(data, q, e - 1);
      assert data[e - 1] == s[|s| - 1];
      Vt100TailFromSpan(data, q, e);
    }
  }

  /** After a parameter list and a final character, the tail of the vt100 pattern
      matches. */
  lemma Vt100TailFromSpan(data: string, q: nat, e: nat)
    requires q < e <= |data|
    requires IsFinal(data[e - 1]) && ParamSpan(data, q, e - 1)
    ensures Vt100Tail(data, ParamRunEnd(data, q), None).Some?
  {
    var a := ParamRunEnd(data, q);
    if a < e - 1 {
      assert ParamAt(data, a, e - 1);
      Vt100TailWithFallback(data, ParamRunEnd(data, a + 1), a + 1);
    } else if a + 1 < |data| && data[a] == ';' && IsParam(data[a + 1]) {
      Vt100TailWithFallback(data, ParamRunEnd(data, a + 1), a + 1);
    }
  }

  // ---------------------------------------------------------------------------
  // The vt100 recognizer returns the longest text

  /** A parameter character is never a final character. */
  lemma ParamNotFinal(c: char)
    requires IsParam(c)
    ensures !IsFinal(c) && c != ';' && c != '?'
  {
  }

  /** The tail returns the last end a final character can have: no later position
      closes a parameter list that begins at `b`. */
  lemma {:induction false} Vt100TailLongest(data: string, b: nat, a: nat, fallback: Option<nat>)
    requires b <= a <= |data| && ParamSpan(data, b, a)
    requires a < |data| ==> !IsParam(data[a])
    requires fallback.Some? ==>
               b < fallback.value <= a && forall j :: fallback.value <= j < a ==> IsParam(data[j])
    ensures var r := Vt100Tail(data, a, fallback);
            r.Some? ==> forall e :: r.value < e <= |data| ==> !ClosesAt(data, b, e)
    decreases |data| - a
  {
    if a + 1 < |data| && data[a] == ';' && IsParam(data[a + 1]) {
      var a' := ParamRunEnd(data, a + 1);
      assert ParamSpan(data, b, a') by {
        forall i | b <= i < a'
          ensures ParamAt(data, i, a')
        {
          if i < a {
            assert ParamAt(data, i, a);
          }
        }
      }
      Vt100TailLongest(data, b, a', Some(a + 1));
    } else {
      var r := Vt100Tail(data, a, fallback);
      if r.Some? {
        forall e | r.value < e <= |data|
          ensures !ClosesAt(data, b, e)
        {
          if e - 1 > a {
            assert !ParamAt(data, a, e - 1);
          } else if e - 1 < a {
            ParamNotFinal(data[e - 1]);
          }
        }
      }
    }
  }

  /** Position `e - 1` holds a final character that closes a parameter list
      beginning at `b`. */
  predicate ClosesAt(data: string, b: nat, e: nat)
    requires e <= |data|
  {
    b < e && IsFinal(data[e - 1]) && ParamSpan(data, b, e - 1)
  }

  /** A vt100 text read off positions of `data`: `[`, an optional `?`, then a
      parameter list closed by a final character. */
  lemma Vt100TextAt(data: string, p: nat, e: nat)
    requires p < e <= |data|
    ensures IsVt100Text(data[p..e]) ==>
              || ClosesAt(data, p + 1, e)
              || (p + 1 < e - 1 && data[p + 1] == '?' && ClosesAt(data, p + 2, e))
  {
    var s := data[p..e];
    if IsVt100Text(s) {
      assert |s| == e - p && s[|s| - 1] == data[e - 1];
      var inner := s[1..|s| - 1];
      forall j | 0 <= j < |inner|
        ensures inner[j] == data[p + 1 + j]
      {
      }
      assert inner == data[p + 1..e - 1];
      ParamSpanIsList(data, p + 1, e - 1);
      if !IsParamList(inner) {
        assert s[1] == data[p + 1];
        var rest := s[2..|s| - 1];
        forall j | 0 <= j < |rest|
          ensures rest[j] == data[p + 2 + j]
        {
        }
        assert rest == data[p + 2..e - 1];
        ParamSpanIsList(data, p + 2, e - 1);
      }
    }
  }

  /** `re.match` of the vt100 pattern returns the longest prefix that is a vt100
      text: the backtracking never settles for a shorter one. */
  lemma Vt100Longest(data: string, p: nat)
    requires p <= |data|
    ensures var r := MatchVt100(data, p);
            r.Some? ==> p < r.value && forall e :: r.value < e <= |data| ==> !IsVt100Text(data[p..e])
  {
    var r := MatchVt100(data, p);
    Vt100Bounds(data, p);
    if r.Some? {
      var q := p + 1;
      TailLongestFrom(data, q);
      if q < |data| && data[q] == '?' {
        TailLongestFrom(data, q + 1);
        Vt100TailBounds(data, ParamRunEnd(data, q + 1), None);
      }
      forall e | r.value < e <= |data|
        ensures !IsVt100Text(data[p..e])
      {
        Vt100TextAt(data, p, e);
        if q < |data| && data[q] == '?' {
          assert !ParamAt(data, q, e - 1);
          if Vt100Tail(data, ParamRunEnd(data, q + 1), None).None? && ClosesAt(data, q + 1, e) {
            Vt100TailFromSpan(data, q + 1, e);
          }
        }
      }
    }
  }

  /** The tail entered at the end of the parameter run from `b` returns the last
      closing position. */
  lemma TailLongestFrom(data: string, b: nat)
    requires b <= |data|
    ensures var r := Vt100Tail(data, ParamRunEnd(data, b), None);
            r.Some? ==> forall e :: r.value < e <= |data| ==> !ClosesAt(data, b, e)
  {
    var a := ParamRunEnd(data, b);
    assert ParamSpan(data, b, a) by {
      forall i | b <= i < a
        ensures ParamAt(data, i, a)
      {
      }
    }
    Vt100TailLongest(data, b, a, None);
  }

  /** Each recognizer returns exactly the ends of texts its pattern describes:
      a match is such a text, and no match means there is none. For the two
      patterns with alternatives of different lengths the longer one is taken. */
  lemma RecognizeExact(k: Kind, data: string, p: nat)
    requires p <= |data|
    ensures var r := Recognize(k, data, p);
            && (r.Some? ==> InLanguage(k, data[p..r.value]))
            && (r.None? <==> forall e :: p < e <= |data| ==> !InLanguage(k, data[p..e]))
            && (k == Vt52 && p + 2 <= |data| && InLanguage(Vt52, data[p..p + 2]) ==> r == Some(p + 2))
            && (r.Some? ==> forall e :: r.value < e <= |data| ==> !InLanguage(k, data[p..e]))
  {
    match k
    case Vt100 =>
      Vt100Sound(data, p);
      Vt100Complete(data, p);
      Vt100Longest(data, p);
    case Vt52 =>
      if MatchVt52(data, p).None? {
        forall e | p < e <= |data|
          ensures !InLanguage(k, data[p..e])
        {
          var s := data[p..e];
          assert |s| >= 1 ==> s[0] == data[p];
          assert |s| == 2 ==> s[1] == data[p + 1];
        }
      }
    case Dec =>
      if MatchDec(data, p).None? {
        forall e | p < e <= |data|
          ensures !InLanguage(k, data[p..e])
        {
          var s := data[p..e];
          assert |s| == 2 ==> s[0] == data[p] && s[1] == data[p + 1];
        }
      }
    case Graphic =>
      if MatchGraphic(data, p).None? {
        forall e | p < e <= |data|
          ensures !InLanguage(k, data[p..e])
        {
          var s := data[p..e];
          assert |s| == 2 ==> s[0] == data[p] && s[1] == data[p + 1];
        }
      }
  }

  // ---------------------------------------------------------------------------
  // The table: first match wins, and the order does not matter

  /** No character can begin texts of two different kinds: `[`, `#` and `(` all
      lie outside `0`..`Z`. */
  lemma FirstCharsDisjoint(k1: Kind, k2: Kind, c: char)
    requires StartsKind(k1, c) && StartsKind(k2, c)
    ensures k1 == k2
  {
  }

  /** Every text of kind `k` begins with a character of kind `k`. */
  lemma InLanguageStarts(k: Kind, s: string)
    requires InLanguage(k, s)
    ensures |s| > 0 && StartsKind(k, s[0])
  {
  }

  /** At any position at most one entry of the table matches. */
  lemma AtMostOneMatches(k1: Kind, k2: Kind, data: string, p: nat)
    requires p <= |data|
    requires Recognize(k1, data, p).Some? && Recognize(k2, data, p).Some?
    ensures k1 == k2
  {
    FirstCharsDisjoint(k1, k2, data[p]);
  }

  datatype Match = Match(kind: Kind, end: nat)

  /** The loop over the table in `order`: the first entry that matches. */
  function FirstMatch(data: string, p: nat, order: seq<Kind>): (r: Option<Match>)
    requires p <= |data|
    ensures r.Some? ==> r.value.kind in order && Recognize(r.value.kind, data, p) == Some(r.value.end)
    ensures r.None? ==> forall k :: k in order ==> Recognize(k, data, p).None?
  {
    if |order| == 0 then None
    else
      match Recognize(order[0], data, p)
      case Some(e) => Some(Match(order[0], e))
      case None => FirstMatch(data, p, order[1..])
  }

  /** The entry `FirstMatch` returns is the earliest in `order` that matches:
      every entry before it fails. */
  lemma {:induction false} FirstMatchIsFirst(data: string, p: nat, order: seq<Kind>)
    requires p <= |data|
    ensures var r := FirstMatch(data, p, order);
            r.Some? ==> exists i :: 0 <= i < |order| && order[i] == r.value.kind && NoneBefore(data, p, order, i)
  {
    var r := FirstMatch(data, p, order);
    if |order| > 0 && r.Some? {
      if Recognize(order[0], data, p).Some? {
        assert order[0] == r.value.kind && NoneBefore(data, p, order, 0);
      } else {
        var rest := order[1..];
        FirstMatchIsFirst(data, p, rest);
        var i :| 0 <= i < |rest| && rest[i] == r.value.kind && NoneBefore(data, p, rest, i);
        assert NoneBefore(data, p, order, i + 1) by {
          forall j | 0 <= j < i + 1
            ensures Recognize(order[j], data, p).None?
          {
            if j > 0 {
              assert order[j] == rest[j - 1];
            }
          }
        }
        assert order[i + 1] == r.value.kind;
      }
    }
  }

  /** No entry of `order` before index `i` matches at `p`. */
  predicate NoneBefore(data: string, p: nat, order: seq<Kind>, i: nat)
    requires p <= |data| && i <= |order|
  {
    forall j :: 0 <= j < i ==> Recognize(order[j], data, p).None?
  }

  /** The escape classifier of `find_next_chunk`: the table tried at `p`, the
      position right after an ESC. It fails exactly when no prefix of the input
      at `p` is a text of any kind. */
  function Classify(data: string, p: nat): (r: Option<Match>)
    requires p <= |data|
    ensures r.Some? ==> p < r.value.end <= |data| && InLanguage(r.value.kind, data[p..r.value.end])
    ensures r.None? <==> forall k, e :: p < e <= |data| ==> !InLanguage(k, data[p..e])
    ensures r.Some? ==> forall k, e :: r.value.end < e <= |data| ==> !InLanguage(k, data[p..e])
  {
    ClassifyExact(data, p);
    FirstMatch(data, p, AllKinds)
  }

  lemma ClassifyExact(data: string, p: nat)
    requires p <= |data|
    ensures var r := FirstMatch(data, p, AllKinds);
            && (r.Some? ==> p < r.value.end <= |data| && InLanguage(r.value.kind, data[p..r.value.end]))
            && (r.None? <==> forall k, e :: p < e <= |data| ==> !InLanguage(k, data[p..e]))
            && (r.Some? ==> forall k, e :: r.value.end < e <= |data| ==> !InLanguage(k, data[p..e]))
  {
    var r := FirstMatch(data, p, AllKinds);
    if r.Some? {
      RecognizeExact(r.value.kind, data, p);
      forall k: Kind, e | r.value.end < e <= |data|
        ensures !InLanguage(k, data[p..e])
      {
        if k != r.value.kind && InLanguage(k, data[p..e]) {
          InLanguageStarts(k, data[p..e]);
          FirstCharsDisjoint(k, r.value.kind, data[p]);
        }
      }
    } else {
      forall k: Kind, e | p < e <= |data|
        ensures !InLanguage(k, data[p..e])
      {
        RecognizeExact(k, data, p);
      }
    }
  }

  /** Iterating the table in any order that lists every kind gives the same
      result, because at most one entry can match. */
  lemma OrderIrrelevant(data: string, p: nat, order: seq<Kind>)
    requires p <= |data|
    requires forall k: Kind :: k in order
    ensures FirstMatch(data, p, order) == Classify(data, p)
  {
    var r1 := FirstMatch(data, p, order);
    var r2 := FirstMatch(data, p, AllKinds);
    if r1.Some? && r2.Some? {
      AtMostOneMatches(r1.value.kind, r2.value.kind, data, p);
    }
  }
}

=== FILE: numerals.dfy ===
/** Python's integer formatting as VT Scope and the code-point dumper use it:
    `%d` / `%s` on a number (base 10) and `%x` (base 16, lower case). */
module Numerals {

  /** The digit character for a digit value below 16, lower-case as `%x` prints it. */
  function DigitChar(d: nat): (c: char)
    requires d < 16
    ensures IsDigitOf(c, 16) && DigitValue(c) == d
  {
    if d < 10 then ('0' as int + d) as char else ('a' as int + d - 10) as char
  }

  /** The value of a digit character ('0'-'9', 'a'-'f'); 0 for anything else. */
  function DigitValue(c: char): nat {
    if '0' <= c <= '9' then c as int - '0' as int
    else if 'a' <= c <= 'f' then c as int - 'a' as int + 10
    else 0
  }

  predicate IsDigitOf(c: char, base: nat) {
    ('0' <= c <= '9' || 'a' <= c <= 'f') && DigitValue(c) < base
  }

  function Pow(b: nat, k: nat): (r: nat)
    ensures b >= 1 ==> r >= 1
  {
    if k == 0 then 1 else b * Pow(b, k - 1)
  }

  /** The digits of `n` in `base`, most significant first, without leading zeros
      ("0" for zero): what `'%d' % n` and `'%x' % n` print for a non-negative `n`. */
  function Format(n: nat, base: nat): (s: string)
    requires 2 <= base <= 16
    ensures |s| >= 1
    ensures forall i :: 0 <= i < |s| ==> IsDigitOf(s[i], base)
    ensures |s| > 1 ==> s[0] != '0'
    decreases n
  {
    if n < base then [DigitChar(n)]
    else
      DivMod(n, base);
      Format(n / base, base) + [DigitChar(n % base)]
  }

  /** Euclidean division by a base, as the digit recursion uses it. */
  lemma DivMod(n: nat, base: nat)
    requires 2 <= base <= n
    ensures n == n / base * base + n % base
    ensures 1 <= n / base < n && n % base < base
  {
  }

  /** The number a digit string denotes in `base` (the inverse of `Format`). */
  function Value(s: string, base: nat): nat {
    if |s| == 0 then 0 else Value(s[..|s| - 1], base) * base + DigitValue(s[|s| - 1])
  }

  /** `Format` loses nothing: reading its digits back gives the number. */
  lemma {:induction false} ValueOfFormat(n: nat, base: nat)
    requires 2 <= base <= 16
    ensures Value(Format(n, base), base) == n
    decreases n
  {
    var s := Format(n, base);
    if n >= base {
      DivMod(n, base);
      ValueOfFormat(n / base, base);
      assert s[..|s| - 1] == Format(n / base, base);
      assert DigitValue(s[|s| - 1]) == n % base;
    }
  }

  lemma MulMono(a: nat, b: nat, c: nat)
    requires a <= b
    ensures a * c <= b * c
  {
  }

  lemma PowStep(b: nat, k: nat)
    ensures Pow(b, k + 1) == Pow(b, k) * b
  {
  }

  /** `Format` prints exactly as many digits as `n` needs:
      base^(|s|-1) <= n < base^|s| (for n > 0). */
  lemma {:induction false} FormatLength(n: nat, base: nat)
    requires 2 <= base <= 16
    ensures n < Pow(base, |Format(n, base)|)
    ensures n > 0 ==> Pow(base, |Format(n, base)| - 1) <= n
    decreases n
  {
    if n < base {
      assert Pow(base, 1) == base;
    } else {
      DivMod(n, base);
      var q := n / base;
      FormatLength(q, base);
      var k := |Format(q, base)|;
      assert |Format(n, base)| == k + 1;
      PowStep(base, k);
      PowStep(base, k - 1);
      Bounds(n, base, q, n % base, Pow(base, k), Pow(base, k - 1));
    }
  }

  lemma Bounds(n: nat, base: nat, q: nat, r: nat, hi: nat, lo: nat)
    requires n == q * base + r && r < base
    requires q < hi && lo <= q
    ensures n < hi * base && lo * base <= n
  {
    MulMono(q + 1, hi, base);
    MulMono(lo, q, base);
  }

  /** A number needs no more digits than any larger number. */
  lemma {:induction false} FormatLengthMonotone(m: nat, n: nat, base: nat)
    requires 2 <= base <= 16
    requires m <= n
    ensures |Format(m, base)| <= |Format(n, base)|
    decreases n
  {
    if m >= base {
      DivMod(m, base);
      DivMod(n, base);
      DivMono(m, n, base);
      FormatLengthMonotone(m / base, n / base, base);
      assert |Format(m, base)| == |Format(m / base, base)| + 1;
      assert |Format(n, base)| == |Format(n / base, base)| + 1;
    }
  }

  lemma DivMono(m: nat, n: nat, base: nat)
    requires 0 < base && m <= n
    ensures m / base <= n / base
  {
    if m / base > n / base {
      assert (n / base + 1) * base == n / base * base + base;
      MulMono(n / base + 1, m / base, base);
    }
  }

  /** `n * c` as `n` repeated additions: lengths of repeated spans are stated with
      it so that proofs about them stay linear. */
  function Times(n: nat, c: nat): nat {
    if n == 0 then 0 else c + Times(n - 1, c)
  }

  lemma {:induction false} TimesIsProduct(n: nat, c: nat)
    ensures Times(n, c) == n * c
  {
    if n > 0 {
      TimesIsProduct(n - 1, c);
    }
  }

  lemma {:induction false} TimesFour(n: nat, b: nat)
    ensures Times(4 * n, b) == Times(n, 4 * b)
  {
    if n > 0 {
      TimesFour(n - 1, b);
      var m := 4 * (n - 1);
      assert Times(m + 4, b) == b + Times(m + 3, b);
      assert Times(m + 3, b) == b + Times(m + 2, b);
      assert Times(m + 2, b) == b + Times(m + 1, b);
      assert Times(m + 1, b) == b + Times(m, b);
    }
  }

  lemma {:induction false} TimesStrict(n: nat, a: nat, c: nat)
    requires n > 0 && a < c
    ensures Times(n, a) < Times(n, c)
  {
    if n > 1 {
      TimesStrict(n - 1, a, c);
    }
  }

  /** `n` spans of `1 + k`: the `n` items of a join and its `n - 1` separators
      of `k`, plus one more separator. */
  lemma {:induction false} TimesJoin(n: nat, k: nat)
    requires n > 0
    ensures n + Times(n - 1, k) + k == Times(n, 1 + k)
  {
    if n > 1 {
      TimesJoin(n - 1, k);
    }
  }

  /** `'%x' % n` for any integer: Python writes a minus sign before the digits of |n|. */
  function Hex(n: int): (s: string)
    ensures |s| >= 1
    ensures n >= 0 ==> s == Format(n, 16)
    ensures n < 0 ==> s == "-" + Format(-n, 16)
  {
    if n < 0 then "-" + Format(-n, 16) else Format(n, 16)
  }

  /** `'%d' % n` for a non-negative integer. */
  function Decimal(n: nat): (s: string)
    ensures |s| >= 1
  {
    Format(n, 10)
  }
}

=== FILE: replay.dfy ===
/** The replay commands of VT Scope: `cmd_step` and `cmd_seek`, which send
    chunks to the clients and move the cursor, plus the end-to-end properties
    of a replay. `cmd_seek` as written loops forever when asked to seek to the
    very end of the data; `SeekAsWritten` models it with a fuel bound and
    `Seek` is the corrected command the rest of the model uses. */
module Replay {
  import opened Wrappers
  import opened Escapes
  import opened Cursor

  /** Why a command refused to do anything. */
  datatype Refusal = AlreadyAtEnd | SeekPastEnd

  /** A command either moves the session and shows chunks, or refuses and leaves
      the session as it was. */
  datatype Outcome = Moved(session: Session, shown: seq<Report>) | Refused(reason: Refusal)

  /** The line printed for a refusal. */
  function Message(r: Refusal): string {
    match r
    case AlreadyAtEnd => "Already at end of data."
    case SeekPastEnd => "Seek past end."
  }

  /** A line only a refusal prints. */
  predicate IsRefusalLine(line: string) {
    line == Message(AlreadyAtEnd) || line == Message(SeekPastEnd)
  }

  /** The lines of the reports in `reps`, in turn. */
  function RenderAll(reps: seq<Report>): (lines: seq<string>)
    ensures |reps| <= |lines| <= 2 * |reps|
    ensures forall i :: 0 <= i < |lines| ==> |lines[i]| > 0 && lines[i][0] in {'E', 'N', 'U'}
  {
    if reps == [] then [] else Render(reps[0]) + RenderAll(reps[1..])
  }

  /** What a command prints: its refusal alone, or the lines of every chunk it
      showed. The operator can tell the two apart: a move never prints a
      refusal's line. */
  function Transcript(o: Outcome): (lines: seq<string>)
    ensures o.Moved? ==> |o.shown| <= |lines| <= 2 * |o.shown|
    ensures o.Refused? <==> exists i :: 0 <= i < |lines| && IsRefusalLine(lines[i])
    ensures o.Refused? ==> |lines| == 1
  {
    match o
    case Refused(reason) =>
      assert IsRefusalLine([Message(reason)][0]);
      [Message(reason)]
    case Moved(_, shown) => RenderAll(shown)
  }

  /** The session once a command has run. */
  function After(s: Session, o: Outcome): Session {
    if o.Moved? then o.session else s
  }

  /** The body shared by the loops of `cmd_step` and `cmd_seek`: send the current
      window to every client, then show the next chunk. The clients receive
      exactly the bytes the cursor passes over. */
  function SendAndShow(s: Session): (r: (Session, Report))
    requires Valid(s)
    ensures r.0.data == s.data && Valid(r.0)
    ensures r.0.start == s.end && r.1.offset == s.end
    ensures s.start < |s.data| ==> s.start < r.0.start
    ensures AppendedTo(s.logs, r.0.logs, Slice(s.data, s.start, r.0.start))
    ensures r.1.chunk.End? <==> r.0.start >= |s.data|
    ensures OnChunk(r.0) && r.1.chunk == ChunkAt(s.data, s.end)
  {
    Show(Broadcast(s))
  }

  /** The reports of a loop entered with the window ending at `from`: the first
      chunk shown starts at `from`, and each next one exactly where the chunk
      before it ends, so no chunk is skipped or merged; each report describes
      the chunk at its offset. */
  predicate Walks(data: string, from: nat, reps: seq<Report>) {
    && (|reps| > 0 ==> reps[0].offset == from)
    && (forall i :: 0 <= i < |reps| - 1 ==> reps[i + 1].offset == ChunkEnd(data, reps[i].offset))
    && forall i :: 0 <= i < |reps| ==> reps[i].chunk == ChunkAt(data, reps[i].offset)
  }

  /** The reports walk the chunks from `from`, and the cursor `s` rests on the
      last chunk shown. */
  predicate Rests(data: string, from: nat, reps: seq<Report>, s: Session) {
    reps != [] ==> Walks(data, from, reps) && s.start == reps[|reps| - 1].offset
  }

  /** A report in front of the reports of the rest of a loop. */
  lemma RestsAfter(data: string, rep: Report, reps: seq<Report>, s: Session)
    requires rep.chunk == ChunkAt(data, rep.offset)
    requires Rests(data, ChunkEnd(data, rep.offset), reps, s)
    requires reps == [] ==> s.start == rep.offset
    ensures Rests(data, rep.offset, [rep] + reps, s)
  {
    if reps != [] {
      WalksAfter(data, rep, reps);
    }
  }

  /** A report in front of a walk that starts where its chunk ends. */
  lemma WalksAfter(data: string, rep: Report, reps: seq<Report>)
    requires rep.chunk == ChunkAt(data, rep.offset)
    requires Walks(data, ChunkEnd(data, rep.offset), reps)
    ensures Walks(data, rep.offset, [rep] + reps)
  {
    var all := [rep] + reps;
    forall i | 0 <= i < |all| - 1
      ensures all[i + 1].offset == ChunkEnd(data, all[i].offset)
    {
      if i > 0 {
        assert all[i] == reps[i - 1] && all[i + 1] == reps[i];
      }
    }
    forall i | 0 <= i < |all|
      ensures all[i].chunk == ChunkAt(data, all[i].offset)
    {
      if i > 0 {
        assert all[i] == reps[i - 1];
      }
    }
  }

  // ---------------------------------------------------------------------------
  // cmd_step

  /** The `while count:` loop of `cmd_step`, entered with the cursor inside the
      data. It stops after `count` chunks, or as soon as the cursor passes the end
      of the data; a negative count is never reached by counting down, so it
      plays to the end. */
  function StepLoop(s: Session, count: int): (r: (Session, seq<Report>))
    requires Valid(s) && s.start < |s.data|
    ensures r.0.data == s.data && Valid(r.0)
    ensures s.start <= r.0.start
    ensures count == 0 ==> r == (s, [])
    decreases |s.data| - s.start
  {
    if count == 0 then (s, [])
    else
      var (s2, rep) := SendAndShow(s);
      if s2.start >= |s2.data| then (s2, [rep])
      else
        var (s3, reps) := StepLoop(s2, count - 1);
        (s3, [rep] + reps)
  }

  /** The clients of a step loop receive exactly the bytes the cursor passes over. */
  lemma {:induction false} StepLoopSends(s: Session, count: int)
    requires Valid(s) && s.start < |s.data|
    ensures var r := StepLoop(s, count);
            AppendedTo(s.logs, r.0.logs, Slice(s.data, s.start, r.0.start))
    decreases |s.data| - s.start
  {
    if count == 0 {
      SentNothing(s.logs, s.data, s.start);
    } else {
      var s2 := SendAndShow(s).0;
      if s2.start < |s2.data| {
        StepLoopSends(s2, count - 1);
        var s3 := StepLoop(s2, count - 1).0;
        AppendedTwice(s.logs, s2.logs, s3.logs, Slice(s.data, s.start, s2.start), Slice(s.data, s2.start, s3.start));
        SliceConcat(s.data, s.start, s2.start, s3.start);
      }
    }
  }

  /** One round of a step loop that does not reach the end of the data: the
      report of the round, then the reports of the rest of the loop. */
  lemma StepRound(s: Session, count: int)
    requires Valid(s) && s.start < |s.data| && count != 0
    requires SendAndShow(s).0.start < |s.data|
    ensures var (s2, rep) := SendAndShow(s);
            StepLoop(s, count) == (StepLoop(s2, count - 1).0, [rep] + StepLoop(s2, count - 1).1)
  {
  }

  /** A step loop shows at most `count` chunks, and at least one. */
  lemma {:induction false} StepLoopCount(s: Session, count: int)
    requires Valid(s) && s.start < |s.data|
    ensures var n := |StepLoop(s, count).1|;
            (count > 0 ==> 1 <= n <= count) && (count < 0 ==> 1 <= n)
    decreases |s.data| - s.start
  {
    if count != 0 {
      var s2 := SendAndShow(s).0;
      if s2.start < |s2.data| {
        StepLoopCount(s2, count - 1);
        StepRound(s, count);
      }
    }
  }

  /** A step loop stops before its count runs out only at the end of the data. */
  lemma {:induction false} StepLoopStops(s: Session, count: int)
    requires Valid(s) && s.start < |s.data|
    ensures var r := StepLoop(s, count);
            (count < 0 || |r.1| < count) ==> r.0.start >= |s.data|
    decreases |s.data| - s.start
  {
    if count != 0 {
      var s2 := SendAndShow(s).0;
      if s2.start < |s2.data| {
        StepLoopStops(s2, count - 1);
        StepRound(s, count);
      }
    }
  }

  /** Only the last of `reps` can be the end of the data, and it is exactly when
      the cursor has `passed` the end. */
  predicate EndsLast(reps: seq<Report>, passed: bool) {
    && (|reps| > 0 ==> (reps[|reps| - 1].chunk.End? <==> passed))
    && forall i :: 0 <= i < |reps| - 1 ==> !reps[i].chunk.End?
  }

  /** A step loop reports the end of the data only last, and exactly when it has
      passed the end. */
  lemma {:induction false} StepLoopEnds(s: Session, count: int)
    requires Valid(s) && s.start < |s.data|
    ensures EndsLast(StepLoop(s, count).1, StepLoop(s, count).0.start >= |s.data|)
    decreases |s.data| - s.start
  {
    if count != 0 {
      var (s2, rep) := SendAndShow(s);
      if s2.start < |s2.data| {
        StepLoopEnds(s2, count - 1);
        StepRound(s, count);
        var (s3, reps) := StepLoop(s2, count - 1);
        EndsAfter(rep, reps, s3.start >= |s.data|);
      }
    }
  }

  /** A report that is not the end, in front of reports that end only last. */
  lemma EndsAfter(rep: Report, reps: seq<Report>, passed: bool)
    requires !rep.chunk.End? && (reps == [] ==> !passed)
    requires EndsLast(reps, passed)
    ensures EndsLast([rep] + reps, passed)
  {
    var all := [rep] + reps;
    forall i | 0 <= i < |all| - 1
      ensures !all[i].chunk.End?
    {
      if i > 0 {
        assert all[i] == reps[i - 1];
      }
    }
  }

  /** A step loop shows one chunk per round: each starts where the one before it
      ends, and the cursor rests on the last chunk shown. */
  lemma {:induction false} StepLoopWalks(s: Session, count: int)
    requires Valid(s) && s.start < |s.data|
    ensures Rests(s.data, s.end, StepLoop(s, count).1, StepLoop(s, count).0)
    ensures StepLoop(s, count).1 != [] ==> OnChunk(StepLoop(s, count).0)
    decreases |s.data| - s.start
  {
    if count != 0 {
      var (s2, rep) := SendAndShow(s);
      if s2.start < |s2.data| {
        StepLoopWalks(s2, count - 1);
        StepRound(s, count);
        var (s3, reps) := StepLoop(s2, count - 1);
        RestsAfter(s.data, rep, reps, s3);
      }
    }
  }

  /** `cmd_step [count]`: refused when the cursor is already past the data;
      otherwise the loop runs with the count, 1 when none is given. */
  function Step(s: Session, count: Option<int>): (r: Outcome)
    requires Valid(s)
    ensures r.Refused? <==> s.start >= |s.data|
    ensures r.Refused? ==> r.reason == AlreadyAtEnd
    ensures r.Moved? ==>
              var n := count.GetOr(1);
              && r.session.data == s.data && Valid(r.session)
              && s.start <= r.session.start
              && AppendedTo(s.logs, r.session.logs, Slice(s.data, s.start, r.session.start))
              && (n >= 0 ==> |r.shown| <= n)
              && (n != 0 ==> |r.shown| >= 1)
              && ((n < 0 || |r.shown| < n) ==> r.session.start >= |s.data|)
              && EndsLast(r.shown, r.session.start >= |s.data|)
    ensures r.Moved? ==> Rests(s.data, s.end, r.shown, r.session)
    ensures r.Moved? && (OnChunk(s) || r.shown != []) ==> OnChunk(r.session)
  {
    if s.start >= |s.data| then Refused(AlreadyAtEnd)
    else
      StepLoopWalks(s, count.GetOr(1));
      StepLoopSends(s, count.GetOr(1));
      StepLoopCount(s, count.GetOr(1));
      StepLoopStops(s, count.GetOr(1));
      StepLoopEnds(s, count.GetOr(1));
      var (s', shown) := StepLoop(s, count.GetOr(1));
      Moved(s', shown)
  }

  // ---------------------------------------------------------------------------
  // cmd_seek

  /** The `while end_position <= pos` loop of `cmd_seek`, with the stop at the
      end of the data that the loop as written lacks (see SeekLoopAsWritten). */
  function SeekLoop(s: Session, pos: int): (r: (Session, seq<Report>))
    requires Valid(s)
    ensures r.0.data == s.data && Valid(r.0)
    ensures s.start <= r.0.start
    ensures pos < r.0.end || r.0.start >= |s.data|
    ensures s.start <= pos ==> r.0.start <= pos
    ensures AppendedTo(s.logs, r.0.logs, Slice(s.data, s.start, r.0.start))
    ensures (pos < s.end || s.start >= |s.data|) ==> r == (s, [])
    ensures |r.1| == 0 <==> r.0 == s
    ensures (OnChunk(s) || r.1 != []) ==> OnChunk(r.0)
    decreases if s.start < |s.data| then |s.data| - s.start else 0
  {
    if s.end <= pos && s.start < |s.data| then
      var (s2, rep) := SendAndShow(s);
      var (s3, reps) := SeekLoop(s2, pos);
      AppendedTwice(s.logs, s2.logs, s3.logs, Slice(s.data, s.start, s2.start), Slice(s.data, s2.start, s3.start));
      SliceConcat(s.data, s.start, s2.start, s3.start);
      (s3, [rep] + reps)
    else SentNothing(s.logs, s.data, s.start); (s, [])
  }

  /** The corrected seek loop shows one chunk per round, each starting where the
      one before it ends, and the cursor rests on the last chunk shown. */
  lemma {:induction false} SeekLoopWalks(s: Session, pos: int)
    requires Valid(s)
    ensures Rests(s.data, s.end, SeekLoop(s, pos).1, SeekLoop(s, pos).0)
    decreases if s.start < |s.data| then |s.data| - s.start else 0
  {
    if s.end <= pos && s.start < |s.data| {
      var (s2, rep) := SendAndShow(s);
      SeekLoopWalks(s2, pos);
      SeekLoopRound(s, pos, s2, rep);
      RestsAfter(s.data, rep, SeekLoop(s2, pos).1, SeekLoop(s2, pos).0);
    }
  }

  /** `cmd_seek pos`: refused past the end of the data; a position at or before
      the cursor's start first resets the cursor and replays from offset 0; then
      chunks are sent until the chunk next up contains `pos` (or the data is
      exhausted). Every byte passed over is sent to every client, in order. */
  function Seek(s: Session, pos: int): (r: Outcome)
    requires Valid(s)
    ensures r.Refused? <==> pos > |s.data|
    ensures r.Refused? ==> r.reason == SeekPastEnd
    ensures r.Moved? ==> r.session.data == s.data && Valid(r.session)
    ensures r.Moved? ==> pos < r.session.end || r.session.start >= |s.data|
    ensures r.Moved? && 0 <= pos ==> r.session.start <= pos
    ensures r.Moved? && 0 <= pos < |s.data| ==> r.session.start <= pos < r.session.end
    ensures r.Moved? && pos < 0 ==> r.session.start == 0
    ensures r.Moved? && pos <= s.start ==>
              && |r.shown| >= 1 && r.shown[0].offset == 0
              && AppendedTo(s.logs, r.session.logs, Consumed(r.session))
    ensures r.Moved? && s.start < pos ==>
              && s.start <= r.session.start
              && AppendedTo(s.logs, r.session.logs, Slice(s.data, s.start, r.session.start))
    ensures r.Moved? ==> Rests(s.data, if pos <= s.start then 0 else s.end, r.shown, r.session)
    ensures r.Moved? && (OnChunk(s) || r.shown != []) ==> OnChunk(r.session)
  {
    if pos > |s.data| then Refused(SeekPastEnd)
    else if pos <= s.start then
      var (s1, rep) := Reset(s);
      var (s2, reps) := SeekLoop(s1, pos);
      assert Slice(s.data, 0, s2.start) == Consumed(s2);
      SeekLoopWalks(s1, pos);
      RestsAfter(s.data, rep, reps, s2);
      Moved(s2, [rep] + reps)
    else
      var (s2, reps) := SeekLoop(s, pos);
      SeekLoopWalks(s, pos);
      Moved(s2, reps)
  }

  // ---------------------------------------------------------------------------
  // What the clients hold

  /** Every client holds its log from `base`, followed by all the data the cursor
      has passed since the last reset. */
  predicate Holds(base: seq<string>, s: Session) {
    AppendedTo(base, s.logs, Consumed(s))
  }

  /** Passing on from `s` to `t` consumes exactly the bytes in between. */
  lemma ConsumedGrows(s: Session, t: Session)
    requires s.data == t.data && s.start <= t.start
    ensures Consumed(s) + Slice(s.data, s.start, t.start) == Consumed(t)
  {
    SliceConcat(s.data, 0, s.start, t.start);
  }

  /** A step keeps every client's log equal to what it had at the last reset
      followed by the data consumed since. */
  lemma StepKeepsConsumed(base: seq<string>, s: Session, count: Option<int>)
    requires Valid(s) && Holds(base, s)
    ensures Step(s, count).Moved? ==> Holds(base, Step(s, count).session)
  {
    var r := Step(s, count);
    if r.Moved? {
      ConsumedGrows(s, r.session);
      AppendedTwice(base, s.logs, r.session.logs, Consumed(s), Slice(s.data, s.start, r.session.start));
    }
  }

  /** A seek keeps the same invariant; a seek that resets starts it afresh from
      the logs the clients held at that moment. */
  lemma SeekKeepsConsumed(base: seq<string>, s: Session, pos: int)
    requires Valid(s) && Holds(base, s)
    ensures var r := Seek(s, pos);
            r.Moved? ==> Holds(if pos <= s.start then s.logs else base, r.session)
  {
    var r := Seek(s, pos);
    if r.Moved? && s.start < pos {
      ConsumedGrows(s, r.session);
      AppendedTwice(base, s.logs, r.session.logs, Consumed(s), Slice(s.data, s.start, r.session.start));
    }
  }

  /** Opening a file starts the invariant afresh: nothing of the new data has
      been consumed. */
  lemma OpenStartsConsumed(s: Session, data: string)
    ensures Holds(s.logs, Open(s, data).0)
  {
    AppendAllNothing(s.logs);
  }

  // ---------------------------------------------------------------------------
  // cmd_seek as written

  /** The loop of `cmd_seek` exactly as written, run for at most `fuel` rounds;
      `None` means it had not stopped by then. */
  function SeekLoopAsWritten(s: Session, pos: int, fuel: nat): (r: Option<(Session, seq<Report>)>)
    requires Valid(s)
    ensures r.Some? ==> pos < r.value.0.end && Valid(r.value.0) && r.value.0.data == s.data
    ensures r.Some? ==> s.start <= r.value.0.start
    ensures r.Some? ==> AppendedTo(s.logs, r.value.0.logs, Slice(s.data, s.start, r.value.0.start))
    decreases fuel
  {
    if s.end <= pos then
      if fuel == 0 then None
      else
        var (s2, rep) := SendAndShow(s);
        match SeekLoopAsWritten(s2, pos, fuel - 1)
        case None => None
        case Some((s3, reps)) =>
          AppendedTwice(s.logs, s2.logs, s3.logs, Slice(s.data, s.start, s2.start), Slice(s.data, s2.start, s3.start));
          SliceConcat(s.data, s.start, s2.start, s3.start);
          Some((s3, [rep] + reps))
    else SentNothing(s.logs, s.data, s.start); Some((s, []))
  }

  /** `cmd_seek` exactly as written, with the loop run for at most `fuel` rounds. */
  function SeekAsWritten(s: Session, pos: int, fuel: nat): (r: Option<Outcome>)
    requires Valid(s)
    ensures r == Some(Refused(SeekPastEnd)) <==> pos > |s.data|
    ensures r.Some? && r.value.Moved? ==> pos < r.value.session.end
  {
    if pos > |s.data| then Some(Refused(SeekPastEnd))
    else
      var (s1, pre) := if pos <= s.start then var (s1, rep) := Reset(s); (s1, [rep]) else (s, []);
      match SeekLoopAsWritten(s1, pos, fuel)
      case None => None
      case Some((s2, reps)) => Some(Moved(s2, pre + reps))
  }

  /** Once the cursor rests at the end of the data, a seek to the end never
      leaves its loop: a terminal advance keeps `end == |data|`, which is still
      `<= pos`. */
  lemma {:induction false} AsWrittenStuckAtEnd(s: Session, fuel: nat)
    requires s.start == s.end == |s.data|
    ensures SeekLoopAsWritten(s, |s.data|, fuel) == None
    decreases fuel
  {
    if fuel > 0 {
      var (s2, _) := SendAndShow(s);
      AsWrittenStuckAtEnd(s2, fuel - 1);
    }
  }

  /** The input that shows it: open a one-character capture and `seek 1`. The
      guard admits 1 (it is not past the end), and the loop never stops, however
      many rounds it is given. */
  lemma AsWrittenSeekToEndHangs(logs: seq<string>, fuel: nat)
    ensures var s := Open(Session("", 0, 0, logs), "a").0;
            SeekAsWritten(s, 1, fuel) == None
  {
    var s := Open(Session("", 0, 0, logs), "a").0;
    assert s.start == 0 && s.end == 1;
    if fuel > 0 {
      var (s2, _) := SendAndShow(s);
      AsWrittenStuckAtEnd(s2, fuel - 1);
    }
  }

  /** The corrected seek to the end of the same capture stops, having sent the
      whole capture to every client. */
  lemma SeekToEndSendsAll(logs: seq<string>)
    ensures var s := Open(Session("", 0, 0, logs), "a").0;
            var r := Seek(s, 1);
            r.Moved? && r.session.start == 1 && AppendedTo(logs, r.session.logs, "a")
  {
    var s := Open(Session("", 0, 0, logs), "a").0;
    assert s.start == 0 && s.end == 1;
    var s2 := SendAndShow(s).0;
    assert s2.start == 1 && SeekLoop(s2, 1) == (s2, []);
    assert Slice("a", 0, 1) == "a";
  }

  /** The loop as written, given `fuel` rounds, stops where the corrected loop does. */
  predicate LoopsMatch(s: Session, pos: int, fuel: nat)
    requires Valid(s)
  {
    SeekLoopAsWritten(s, pos, fuel) == Some(SeekLoop(s, pos))
  }

  /** A target below the end of the data, and more rounds than `end` is short
      of it: each round moves `end` forward by at least one. */
  predicate EnoughRounds(s: Session, pos: int, fuel: nat) {
    Valid(s) && pos < |s.data| && fuel > pos - s.end
  }

  /** Below the end of the data the two loops agree, given enough rounds. */
  lemma {:induction false} LoopsAgree(s: Session, pos: int, fuel: nat)
    requires EnoughRounds(s, pos, fuel)
    ensures LoopsMatch(s, pos, fuel)
    decreases fuel, 1
  {
    if s.end <= pos {
      RoundAgrees(s, pos, fuel);
    } else {
      NoRound(s, pos, fuel);
    }
  }

  /** The round of `LoopsAgree` that sends a chunk: the rest of both loops
      agrees by induction. */
  lemma {:induction false} RoundAgrees(s: Session, pos: int, fuel: nat)
    requires Valid(s) && s.end <= pos < |s.data| && fuel > pos - s.end
    ensures LoopsMatch(s, pos, fuel)
    decreases fuel, 0
  {
    var next, left := NextRound(s, pos, fuel);
    LoopsAgree(next, pos, left);
  }

  /** When the chunk next up already contains `pos`, neither loop sends anything. */
  lemma NoRound(s: Session, pos: int, fuel: nat)
    requires Valid(s) && pos < s.end
    ensures SeekLoop(s, pos) == (s, []) && LoopsMatch(s, pos, fuel)
  {
  }

  /** The session after one round inside the data: its window ends further on,
      so one round fewer still suffices, and if both loops agree from there they
      agree from `s`. */
  lemma NextRound(s: Session, pos: int, fuel: nat) returns (next: Session, left: nat)
    requires Valid(s) && s.end <= pos < |s.data| && fuel > pos - s.end
    ensures EnoughRounds(next, pos, left) && left < fuel
    ensures LoopsMatch(next, pos, left) ==> LoopsMatch(s, pos, fuel)
  {
    var rep;
    next, rep := SendAndShow(s).0, SendAndShow(s).1;
    left := fuel - 1;
    if LoopsMatch(next, pos, left) {
      RoundMatches(s, pos, fuel, left, next, rep);
    }
  }

  /** If both loops agree after one round, they agree from before it. */
  lemma RoundMatches(s: Session, pos: int, fuel: nat, left: nat, next: Session, rep: Report)
    requires Valid(s) && s.end <= pos < |s.data| && fuel == left + 1
    requires next == SendAndShow(s).0 && rep == SendAndShow(s).1
    requires Valid(next) && LoopsMatch(next, pos, left)
    ensures LoopsMatch(s, pos, fuel)
  {
    AsWrittenRound(s, pos, fuel, left, next, rep, SeekLoop(next, pos));
    SeekLoopRound(s, pos, next, rep);
  }

  /** One round of the loop as written, when the rest of it stops with `rest`. */
  lemma AsWrittenRound(s: Session, pos: int, fuel: nat, left: nat, next: Session, rep: Report, rest: (Session, seq<Report>))
    requires Valid(s) && s.end <= pos && fuel == left + 1 && next == SendAndShow(s).0 && rep == SendAndShow(s).1
    requires Valid(next) && SeekLoopAsWritten(next, pos, left) == Some(rest)
    ensures SeekLoopAsWritten(s, pos, fuel) == Some((rest.0, [rep] + rest.1))
  {
  }

  /** One round of the corrected loop inside the data. */
  lemma SeekLoopRound(s: Session, pos: int, next: Session, rep: Report)
    requires Valid(s) && s.end <= pos && s.start < |s.data| && next == SendAndShow(s).0 && rep == SendAndShow(s).1
    ensures SeekLoop(s, pos) == (SeekLoop(next, pos).0, [rep] + SeekLoop(next, pos).1)
  {
  }

  /** The corrected `Seek` differs from the command as written only at
      `pos == |data|`, where the command as written can hang. */
  lemma SeekAgreesBelowEnd(s: Session, pos: int, fuel: nat)
    requires Valid(s) && pos < |s.data|
    requires fuel >= |s.data|
    ensures SeekAsWritten(s, pos, fuel) == Some(Seek(s, pos))
  {
    if pos <= s.start {
      var (s1, _) := Reset(s);
      LoopsAgree(s1, pos, fuel);
    } else {
      LoopsAgree(s, pos, fuel);
      var (s2, reps) := SeekLoop(s, pos);
      assert [] + reps == reps;
    }
  }

  // ---------------------------------------------------------------------------
  // End-to-end properties

  /** Seeking to the same position again does nothing exactly when the first
      seek did not stop with the cursor starting at that position; when it did,
      or when the position is negative, the `pos <= start` test resets the
      cursor and the clients are sent the replay from offset 0 again. */
  lemma SeekAgain(s: Session, pos: int)
    requires Valid(s) && pos <= |s.data|
    ensures var s1 := Seek(s, pos).session;
            var r := Seek(s1, pos);
            && (0 <= pos && s1.start != pos ==> r == Moved(s1, []))
            && ((pos < 0 || s1.start == pos) ==>
                  && r.Moved? && |r.shown| >= 1 && r.shown[0].offset == 0
                  && AppendedTo(s1.logs, r.session.logs, Consumed(r.session)))
  {
  }

  /** Opening a capture and stepping with a negative count plays it to the end:
      every client receives exactly the whole capture, once, in order. */
  lemma PlayToEnd(s: Session, data: string)
    ensures var s1 := Open(s, data).0;
            var s2 := After(s1, Step(s1, Some(-1)));
            s2.start >= |data| && AppendedTo(s.logs, s2.logs, data)
  {
    var s1 := Open(s, data).0;
    var r := Step(s1, Some(-1));
    var s2 := After(s1, r);
    if r.Moved? {
      assert Slice(data, s1.start, s2.start) == data;
    } else {
      assert data == "";
      AppendAllNothing(s.logs);
    }
  }

  /** The three-chunk capture `ESC [31m Hello ESC [0m`: opening it shows the
      colour sequence, and three steps show the text, the reset sequence, and
      the end of the data, after which the client holds the whole capture. */
  lemma ThreeChunkCapture()
    ensures var (s1, first) := Open(Session("", 0, 0, [""]), Sample);
            var r := Step(s1, Some(3));
            && first == Report(0, Escape("[31m", true))
            && r.Moved?
            && r.shown == [Report(5, Text(5, "Hello")), Report(10, Escape("[0m", true)), Report(14, End)]
            && r.session.logs == [Sample]
  {
    SampleOpen();
    SampleLoop();
    var s1 := Session(Sample, 0, 5, [""]);
    var s4 := Session(Sample, 14, 14, [Sample]);
    assert Step(s1, Some(3)) == Moved(s4, [Report(5, Text(5, "Hello")), Report(10, Escape("[0m", true)), Report(14, End)]);
  }

  /** Three rounds of the step loop over the capture, from the first chunk. */
  lemma SampleLoop()
    ensures StepLoop(Session(Sample, 0, 5, [""]), 3)
              == (Session(Sample, 14, 14, [Sample]), [Report(5, Text(5, "Hello")), Report(10, Escape("[0m", true)), Report(14, End)])
  {
    var s1 := Session(Sample, 0, 5, [""]);
    SampleSteps();
    var s2 := Session(Sample, 5, 10, [Sample[..5]]);
    var s3 := Session(Sample, 10, 14, [Sample[..10]]);
    var s4 := Session(Sample, 14, 14, [Sample]);
    assert StepLoop(s3, 1) == (s4, [Report(14, End)]);
    assert SendAndShow(s2) == (s3, Report(10, Escape("[0m", true)));
    assert [Report(10, Escape("[0m", true))] + [Report(14, End)] == [Report(10, Escape("[0m", true)), Report(14, End)];
    assert StepLoop(s2, 2) == (s4, [Report(10, Escape("[0m", true)), Report(14, End)]);
    assert SendAndShow(s1) == (s2, Report(5, Text(5, "Hello")));
    assert [Report(5, Text(5, "Hello"))] + [Report(10, Escape("[0m", true)), Report(14, End)]
        == [Report(5, Text(5, "Hello")), Report(10, Escape("[0m", true)), Report(14, End)];
  }

  const Sample: string := "\U{1B}[31mHello\U{1B}[0m"

  lemma SampleOpen()
    ensures Open(Session("", 0, 0, [""]), Sample) == (Session(Sample, 0, 5, [""]), Report(0, Escape("[31m", true)))
  {
    var d := Sample;
    assert d[1] == '[' && d[2] == '3' && d[3] == '1' && d[4] == 'm';
    assert ParamRunEnd(d, 2) == 4 by {
      assert ParamRunEnd(d, 4) == 4;
      assert ParamRunEnd(d, 3) == 4;
    }
    assert Vt100Tail(d, 4, None) == Some(5);
    assert MatchVt100(d, 1) == Some(5);
    ClassifyVt100(d, 1, 5);
    assert Slice(d, 1, 5) == "[31m";
    assert FindNextChunk(Session(d, 0, 0, [""])) == (Session(d, 0, 5, [""]), Escape("[31m", true));
  }

  /** A match of the vt100 pattern is what the pattern table reports, since the
      vt100 pattern is tried first. */
  lemma ClassifyVt100(data: string, p: nat, e: nat)
    requires p <= |data| && MatchVt100(data, p) == Some(e)
    ensures Classify(data, p) == Some(Match(Vt100, e))
  {
    assert Recognize(Vt100, data, p) == Some(e);
    assert FirstMatch(data, p, AllKinds) == Some(Match(Vt100, e));
  }

  lemma SampleSteps()
    ensures SendAndShow(Session(Sample, 0, 5, [""])) == (Session(Sample, 5, 10, [Sample[..5]]), Report(5, Text(5, "Hello")))
    ensures SendAndShow(Session(Sample, 5, 10, [Sample[..5]])) == (Session(Sample, 10, 14, [Sample[..10]]), Report(10, Escape("[0m", true)))
    ensures SendAndShow(Session(Sample, 10, 14, [Sample[..10]])) == (Session(Sample, 14, 14, [Sample]), Report(14, End))
  {
    SampleText();
    SampleReset();
    SampleEnd();
  }

  lemma SampleText()
    ensures SendAndShow(Session(Sample, 0, 5, [""])) == (Session(Sample, 5, 10, [Sample[..5]]), Report(5, Text(5, "Hello")))
  {
    SampleSend(0, 5, "");
    assert "" + Sample[0..5] == Sample[..5];
    assert Find(Sample, ESC, 5) == 10;
    assert Sample[5..10] == "Hello";
  }

  lemma SampleReset()
    ensures SendAndShow(Session(Sample, 5, 10, [Sample[..5]])) == (Session(Sample, 10, 14, [Sample[..10]]), Report(10, Escape("[0m", true)))
  {
    SampleSend(5, 10, Sample[..5]);
    assert Sample[..5] + Sample[5..10] == Sample[..10];
    var d := Sample;
    assert d[11] == '[' && d[12] == '0' && d[13] == 'm';
    assert ParamRunEnd(d, 12) == 13 by {
      assert ParamRunEnd(d, 13) == 13;
    }
    assert Vt100Tail(d, 13, None) == Some(14);
    assert MatchVt100(d, 11) == Some(14);
    ClassifyVt100(d, 11, 14);
    assert Sample[11..14] == "[0m";
  }

  lemma SampleEnd()
    ensures SendAndShow(Session(Sample, 10, 14, [Sample[..10]])) == (Session(Sample, 14, 14, [Sample]), Report(14, End))
  {
    SampleSend(10, 14, Sample[..10]);
    assert Sample[..10] + Sample[10..14] == Sample;
  }

  lemma SampleSend(i: nat, j: nat, log: string)
    requires i <= j <= |Sample|
    ensures Broadcast(Session(Sample, i, j, [log])) == Session(Sample, i, j, [log + Sample[i..j]])
  {
    var b := Broadcast(Session(Sample, i, j, [log]));
    assert b.logs[0] == log + Sample[i..j];
    assert b.logs == [log + Sample[i..j]];
  }
}

=== FILE: strings.dfy ===
/** Python string operations shared by both programs: `sep.join(chars)` and the
    right-aligning field width of `'%*s'` / `'%*x'`. */
module Strings {
  import Numerals

  /** `sep.join(items)` over single characters: the items in order, with `sep`
      between each two. */
  function Join(sep: string, items: seq<char>): (r: string)
    ensures |items| == 0 ==> r == ""
    ensures |items| > 0 ==> |r| == |items| + Numerals.Times(|items| - 1, |sep|)
  {
    if |items| <= 1 then items else [items[0]] + sep + Join(sep, items[1..])
  }

  /** Item `i` of a join sits after `i` spans of one item and one separator. */
  lemma {:induction false} JoinItem(sep: string, items: seq<char>, i: nat)
    requires i < |items|
    ensures Numerals.Times(i, 1 + |sep|) < |Join(sep, items)|
    ensures Join(sep, items)[Numerals.Times(i, 1 + |sep|)] == items[i]
    decreases i
  {
    if i > 0 {
      JoinItem(sep, items[1..], i - 1);
      assert Join(sep, items) == ([items[0]] + sep) + Join(sep, items[1..]);
    }
  }

  /** The separator follows every item of a join but the last. */
  lemma {:induction false} JoinSep(sep: string, items: seq<char>, i: nat)
    requires i + 1 < |items|
    ensures Numerals.Times(i + 1, 1 + |sep|) <= |Join(sep, items)|
    ensures Join(sep, items)[Numerals.Times(i, 1 + |sep|) + 1..Numerals.Times(i + 1, 1 + |sep|)] == sep
    decreases i
  {
    var head := [items[0]] + sep;
    var rest := Join(sep, items[1..]);
    assert Join(sep, items) == head + rest;
    if i == 0 {
      assert (head + rest)[1..|head|] == sep;
    } else {
      JoinSep(sep, items[1..], i - 1);
      SliceAfter(head, rest, Numerals.Times(i - 1, 1 + |sep|) + 1, Numerals.Times(i, 1 + |sep|));
    }
  }

  /** Slicing past a prefix is slicing the rest. */
  lemma SliceAfter(p: string, q: string, x: nat, y: nat)
    requires x <= y <= |q|
    ensures (p + q)[|p| + x..|p| + y] == q[x..y]
  {
  }

  /** `'%*s' % (width, s)` for a non-negative width: `s` right-aligned in a field
      of `width` columns, never truncated. */
  function PadLeft(s: string, width: nat): (r: string)
    ensures |r| == if |s| >= width then |s| else width
    ensures r[|r| - |s|..] == s
    ensures forall i :: 0 <= i < |r| - |s| ==> r[i] == ' '
  {
    if |s| >= width then s else Spaces(width - |s|) + s
  }

  function Spaces(n: nat): (r: string)
    ensures |r| == n
    ensures forall i :: 0 <= i < n ==> r[i] == ' '
  {
    if n == 0 then "" else " " + Spaces(n - 1)
  }
}

=== FILE: wrappers.dfy ===
/** Failure-carrying values shared by the other modules. */
module Wrappers {

  /** A value that may be absent (Python's `None`, or a regex that did not match). */
  datatype Option<+T> = None | Some(value: T) {

    /** The carried value, or `default` when there is none. */
    function GetOr(default: T): T {
      match this
      case Some(v) => v
      case None => default
    }
  }

  /** The outcome of an operation that can fail with an error value. */
  datatype Result<+T, +E> = Success(value: T) | Failure(error: E)
}
